=== FILE: README.md ===
# code-lines, modelled in Dafny

`code-lines` is a command-line tool that counts lines of code under a directory.
It walks the tree and skips every path that has a segment equal to an excluded
directory name. The excluded names are `target`, `build`, `bin`, `dist` and `.git`,
plus each `--exclude-dir` value. It recognises a file by its extension, using a
fixed table of 28 languages, and counts the `'\n'` characters in the file. It then
prints one of two reports:

- a verbose report: a banner, a table of files, a table of languages and a grand total;
- a quiet report (`-q`): the grand total alone.

The model covers the whole of `src/main.rs`, which is the entire program:

| file | module | what it holds |
|---|---|---|
| `base.dfy` | `Base` | `Option`, `Result`, and `IsEnumeration`, which describes an iteration order of a hash map's keys |
| `text.dfy` | `Text` | decimal printing and parsing, reversal, padding, and the report's tail truncation of paths |
| `line_count.dfy` | `LineCount` | `count_lines_of_code` |
| `languages.dfy` | `Languages` | the language registry as built by its 29 `insert` calls, and extension lookup |
| `exclusion.dfy` | `Exclusion` | the exclusion list and the per-path segment test |
| `sorting.dfy` | `Sorting` | `sort_by` on a count, largest first, as a stable insertion sort |
| `totals.dfy` | `Totals` | sums over a map of totals, and their independence from iteration order |
| `aggregate.dfy` | `Aggregate` | the main loop, as a fold over the walk |
| `report.dfy` | `Report` | the verbose and the quiet report |
| `code_lines.dfy` | `CodeLines` | one invocation end to end, plus concrete scenarios |

The program's environment enters the model as data:

- The walk is a sequence of `Candidate`s. Each has a path string, its segments and its extension.
- The file system's `read_to_string` is a function from a path to `Content(text)` or `ReadFailed(message)`.
- `dir.exists()` is a boolean.
- The terminal's column count is an `Option<nat>`.
- Each of the two `HashMap`s is iterated in an order passed as an explicit sequence. `IsEnumeration` requires that sequence to list every key once. Every property that should not depend on the order is proved for all such orders.

The registry has one behaviour worth knowing. `"Perl"` is inserted twice. The second insert (`["pl"]`) replaces the first (`["plx", "pl", "pm", "xs", "t", "pod"]`). So `.pm`, `.pod`, `.plx`, `.xs` and `.t` files are not counted at all. The model reproduces this and proves it (`Languages.TableIsFinalTable`, `Languages.PerlKeepsOnlyPl`).

## Model

| member | source | states |
|---|---|---|
| LineCount.CountLinesOfCode | src/main.rs:11-16 | A read error comes back unchanged as the error. Otherwise the count is the multiplicity of `'\n'` in the file's text, which is at most the text's length. |
| LineCount.LinesRead | src/main.rs:11-16 | The same answer as a function used by the loop: the error passes through, and a readable file gives its newline multiplicity. |
| LineCount.CountIsMultiplicity | src/main.rs:12-15 | Filtering and counting the characters front to back yields the number of `'\n'` in the text. |
| LineCount.CountAppend | src/main.rs:12-15 | The count of a concatenation is the sum of the counts of its parts. |
| LineCount.CountAtMostLength | src/main.rs:12-15 | A file never has more counted lines than characters. |
| LineCount.NoTrailingNewlineNoExtraLine | src/main.rs:12-15 | A last line without a terminating newline adds nothing to the count. |
| LineCount.TerminatedLineAddsOne | src/main.rs:12-15 | Each newline-terminated line adds exactly one. |
| Languages.TableIsFinalTable | src/main.rs:45-79 | The 29 inserts in source order build a 28-entry map, listed in full. Perl's entry is `["pl"]` alone because the later insert replaces the earlier one. |
| Languages.OwnerCoversTable | src/main.rs:45-79 | Every extension in a language's list maps back to that language under an inverse index that is independent of the map. |
| Languages.TableDisjoint | src/main.rs:45-79 | No extension is listed by two languages. |
| Languages.Lookup | src/main.rs:143-147 | A found language is in the table and lists the extension. It is also the first language in iteration order that lists it. The result is "none" exactly when no language in the order lists the extension. |
| Languages.LookupIsOwnerOfExtension | src/main.rs:143-147 | For a disjoint table iterated in any complete order, lookup returns `l` exactly when `l` lists the extension. It returns none exactly when no language lists it. |
| Languages.LookupOrderIndependent | src/main.rs:143-147 | For a disjoint table, lookup gives the same answer for every iteration order of the map. |
| Languages.UnlistedExtensions | src/main.rs:57-73 | After start-up, no language lists `pm`, `pod`, `plx`, `xs`, `t` or `H`. |
| Languages.PerlKeepsOnlyPl | src/main.rs:57-73 | `.pl` is Perl; `.pm`, `.pod`, `.plx`, `.xs` and `.t` select no language, whatever the iteration order. |
| Languages.DroppedPerlExtensions | src/main.rs:57-73 | Each extension of Perl's first list other than `pl` selects no language, whatever the iteration order. |
| Languages.LookupIsCaseSensitive | src/main.rs:143-147 | Matching is exact: `h` is C/C++, `H` is nothing, `M` is Objective-C. |
| Exclusion.ExcludedDirs | src/main.rs:81-95 | The list is the five defaults in order, followed by the user's values in the order given, so every default is always present. |
| Exclusion.IsExcluded | src/main.rs:125-141 | The nested loop with its two breaks answers true exactly when some path segment equals some listed name. That answer is the segment predicate the main loop uses. |
| Exclusion.DescendantsExcluded | src/main.rs:121-141 | A path below an excluded path is excluded too. Testing each path separately therefore drops the whole subtree. |
| Exclusion.DefaultsAlwaysApply | src/main.rs:81-95 | A path with a default name among its segments is excluded whatever `--exclude-dir` adds. |
| Exclusion.MoreNamesExcludeMore | src/main.rs:88-95 | Appending names to the list never makes an excluded path included again. |
| Exclusion.ExactSegmentMatch | src/main.rs:126-131 | The match is on whole segments: `buildx` and `my-target` are not excluded, and `build` is. |
| Exclusion.ExcludedRootExcludesEverything | src/main.rs:121-141 | If the root itself has a `build` segment, every path of the walk is excluded. |
| Sorting.SortDesc | src/main.rs:174 | The sorted sequence is a permutation of the input (same multiset) with the same length and the same sum of counts. |
| Sorting.SortDescSorted | src/main.rs:174 | Counts never increase along the sorted sequence. |
| Sorting.InsertStable | src/main.rs:174 | Inserting one element keeps the relative order of the elements that share each count. |
| Sorting.SortIsStable | src/main.rs:174 | Elements with equal counts keep their input order. |
| Sorting.StableSortUnique | src/main.rs:174 | Two sorted sequences with the same per-count orders are equal. Any stable sort therefore gives the same result as the modelled one. |
| Sorting.SortDescCharacterised | src/main.rs:192-193 | The sorted output is the only non-increasing arrangement that keeps each count's input order. |
| Totals.SumOverEnumeration | src/main.rs:214-217 | Adding up the totals in any complete iteration order gives the map's total. |
| Totals.SumOverOrderIndependent | src/main.rs:214-217 | Two iteration orders give the same sum. |
| Totals.MapSumUpdate | src/main.rs:157-161 | Replacing one language's total changes the grand total by exactly the difference. |
| Totals.ValueAtMostSum | src/main.rs:195-204 | No language's total exceeds the grand total. |
| Aggregate.Classify | src/main.rs:125-166 | A path is skipped if it is excluded, has no extension, or has an extension no language lists. A file is counted exactly when it is not excluded, its extension is found, and it is readable. Its language is then the one lookup returns, which lists the extension, and its line count is its newline count. A read error is reported exactly when the file is not excluded, its extension is found, and reading fails. The report carries the read error's message. |
| Aggregate.AddLines | src/main.rs:157-162 | `get_mut`-or-`insert`: the language becomes a key and its total grows by the file's lines. No other total changes. |
| Aggregate.Step | src/main.rs:139-165 | Languages are never removed and no total ever decreases. The grand total grows by exactly the lines the new records add. A skipped path leaves the state alone. A read error appends `Error: <message>` and changes nothing else. A counted file appends one record and adds its lines to its language's total. |
| Aggregate.RunMatchesAccepted | src/main.rs:118-168 | After the loop, the records are the accepted files in walk order. A language has a total exactly when some file of it was accepted, and that total is the sum of those files' lines. The error lines are `Error: <message>`, one per non-excluded file of a known extension that could not be read, in walk order. |
| Aggregate.RunIgnoresExcluded | src/main.rs:121-141 | The loop ends in the same state, records, totals and error lines alike, when the excluded candidates are removed from the walk first. |
| Aggregate.SubtreeNotKept | src/main.rs:121-141 | A candidate anywhere below an excluded directory is among the removed ones, at any depth. |
| Aggregate.RunTotalsMatchRecords | src/main.rs:118-168 | The per-language totals add up to the sum of the records' line counts. |
| Aggregate.LanguageTotalCoversFile | src/main.rs:157-162 | A language's total is at least the lines of each of its files. |
| Aggregate.RunTotalCoversFile | src/main.rs:157-162 | After the loop, every accepted file's language is a key of the totals map, with a total at least that file's lines. |
| Aggregate.Aggregate | src/main.rs:118-168 | The imperative loop produces the accepted records and the error lines in walk order. A language gets a total exactly when one of its files was accepted, and the total is the sum of those files' lines. The grand total equals the records' sum. |
| Text.NatToString | src/main.rs:180 | `to_string` of a count gives at least one digit with no leading zero, and a single digit exactly below ten. |
| Text.ParseNatToString | src/main.rs:219 | A printed count reads back as the same number. |
| Text.TailTruncateIsSuffix | src/main.rs:182-184 | Reversing, truncating to `len` and reversing back keeps exactly the last `min(len, length)` characters of the path. |
| Text.TailTruncateFits | src/main.rs:182-184 | A path no longer than `len` is printed whole. |
| Report.Row | src/main.rs:197-202 | The caption is padded with spaces to `width - digits - 2` columns, followed by one space and the count. A row whose caption fits is exactly `width - 1` columns. A longer caption is not cut and pushes the count right. |
| Report.FileRow | src/main.rs:180-186 | A file line is always `width - 1` columns. It starts with the tail of the path and ends with the count, and every column between them is a space. |
| Report.FileRows | src/main.rs:175-187 | The i-th line is the file row of the i-th record with a non-zero count, in input order. Each line is `width - 1` columns. |
| Report.ShownOfSorted | src/main.rs:174-178 | Hiding zero-line records after sorting equals sorting the non-empty ones. The file table lists exactly the non-empty records, largest first, with ties in walk order. |
| Report.SortedShown | src/main.rs:171-178 | Sorting adds no records and does not change how many are shown. |
| Report.ShownAndZeros | src/main.rs:171-178 | The shown records and the zero-line records together make up all of them. |
| Report.FileTable | src/main.rs:171-187 | The file table is a blank line, `Files (N)`, a rule of `width - 1` `=`, then one line per non-empty record. N counts all records, zero-line ones included. |
| Report.FileTableLists | src/main.rs:174-187 | Line `3 + i` of the file table is the file row of the i-th non-empty record in stable descending order of lines. |
| Report.SortedLanguages | src/main.rs:192-193 | The sorted list has one entry per language, each a language with its own total, and totals never increase along it. |
| Report.SortedLanguagesArePairs | src/main.rs:192-193 | The sorted list is a permutation of the map's (language, total) pairs, so every language appears with its total. Languages with equal totals keep the map's iteration order. |
| Report.LanguageTable | src/main.rs:188-203 | The language table is a blank line, `Languages` and a rule of `width - 1` `=`, followed by one line per language. |
| Report.LanguageTableLists | src/main.rs:191-203 | Line `3 + i` of the language table is the row of the i-th language of the sorted list, showing that language's total. |
| Report.VerboseTotal | src/main.rs:192-204 | The total accumulated over the sorted language list is the sum of all totals. |
| Report.PairsSum | src/main.rs:192-204 | The pairs taken from the map sum to the map's total in its iteration order. |
| Report.Verbose | src/main.rs:170-212 | The report after the banner has `9 + shown records + languages` lines. Its second line is `Files (N)` for all N records. Its last line is the `Total:` row carrying the grand total. |
| Report.VerboseLists | src/main.rs:170-212 | The report after the banner is the file table, then the language table, then a rule of `width - 1` `-`, a blank line and the `Total:` row carrying the grand total, in that order. |
| Report.Quiet | src/main.rs:213-220 | Quiet mode prints exactly one line, the decimal text of the sum of all totals. That text reads back as the sum. |
| CodeLines.GrandTotalFitsAll | src/main.rs:180-211 | If the grand total fits the width, so does every count the verbose report prints, so no column computation goes below zero. |
| CodeLines.Invoke | src/main.rs:97-220 | A missing root prints `Directory "<dir>" not found.` on standard error and nothing on standard output. Quiet mode prints exactly one line, the decimal text of the grand total. Verbose mode prints the banner first and the total row carrying the grand total last; `CodeLines.InvokePrintsReport` gives the lines between. Standard error is the loop's `Error: <message>` lines, which `Aggregate.RunMatchesAccepted` places in walk order. |
| CodeLines.Printed | src/main.rs:114-220 | Given the loop's final state, quiet output is exactly the decimal text of the total. Verbose output is exactly the banner followed by the verbose report. Standard error is the loop's error lines. |
| CodeLines.InvokePrintsReport | src/main.rs:114-212 | In verbose mode, once the grand total fits the width, every printed count fits and standard output is exactly the banner followed by the verbose report whose line groups `Report.VerboseLists` gives. |
| CodeLines.QuietTotalIsLinesOfAllFiles | src/main.rs:213-219 | The quiet total is the sum of the lines of every counted file, zero-line files included. |
| CodeLines.VerboseTotalIsQuietTotal | src/main.rs:195-219 | The verbose `Total:` row shows the number the quiet mode prints for the same tree. |
| CodeLines.ScenarioExcludedSubtree | src/main.rs:121-219 | The tree holds `a.py` (3 newlines), `b.rs` (no newline) and `c.exclude/d.py` (5 newlines), scanned with `--exclude-dir c.exclude`. It yields two records, Python 3 and Rust 0, and quiet output `3`. |
| CodeLines.ScenarioNothingRecognised | src/main.rs:143-219 | A tree where no file has an extension the registry lists gives no records, no totals, no error lines and quiet output `0`, whatever the files hold. |
| CodeLines.ScenarioPerlModulesIgnored | src/main.rs:57-73 | A tree of `.pm` and `.pod` files alone prints `0` and no error lines in quiet mode. |

## Left out

- Argument parsing with clap (src/main.rs:19-43) is left out. An invocation starts from the parsed `Options`.
- Directory traversal by `WalkDir` is left out. Its output is the `walk` sequence, and each path's segments and extension are given rather than derived. `Path::extension`'s rules about leading and trailing dots are therefore not modelled.
- Walk errors are left out. `entry.unwrap()` (src/main.rs:122) panics on one. The model assumes the walk yields no errors.
- Paths that are not UTF-8 are left out: every `to_str().unwrap()` would panic on them, and paths are Dafny strings here.
- Excluded subtrees are not pruned. The source tests each path the walk yields and does not stop `WalkDir` from descending into an excluded directory. The model does the same. `Exclusion.DescendantsExcluded` shows that every path below an excluded path is excluded itself. `Aggregate.RunIgnoresExcluded` shows that excluded candidates leave no trace in the loop's state. Together, no file below an excluded directory reaches a record, a total or an error line (`Aggregate.SubtreeNotKept`). A pruning walk itself is not modelled.
- File reading is an oracle. The text of an I/O error message is opaque. An unreadable file produces no record and no language total (src/main.rs:148-165); it is not counted as a zero-line file.
- The terminal query `term_size::dimensions` is left out. It is an `Option<nat>` of columns; the row count is never used.
- The interleaving of standard output and standard error is left out. They are two separate line sequences. The banner is printed before the walk, so on a real terminal error lines come after it.
- `HashMap` iteration order is left out. It is a parameter, constrained only to list every key once.
- CodeLines.Invoke: requires the grand total plus two to fit the width in verbose mode. The source's `usize` subtractions (src/main.rs:172, 180, 190, 201, 206, 211) underflow on a narrower terminal, which panics in a debug build and wraps in a release build. That path is not modelled. When the grand total fits, every other printed count fits as well (`CodeLines.GrandTotalFitsAll`).
- Report.Row: needs the count to fit the width, for the same reason.
- Report.FileRow: truncates by characters. `String::truncate` takes a byte length and panics inside a multi-byte character; paths are taken to be one byte per character.
- Counts are unbounded naturals. Overflow of the `usize` sums is not modelled.
- Languages.Owner: only its coverage direction is proved. Each listed extension maps to its language, which is what disjointness needs. The converse, that any extension `Owner` accepts is listed, is not.

=== FILE: aggregate.dfy ===
/** The main loop (src/main.rs:118-168): for every path of the walk, skip it
    if excluded, classify it by extension, count its lines, and fold the
    result into the list of file records and the per-language totals. */
module Aggregate {
  import opened Base
  import opened LineCount
  import opened Languages
  import opened Exclusion
  import opened Sorting
  import opened Totals

  /** One path yielded by the walk: its text, its segments (`path.iter()`,
      the root's own segments included) and its extension, if any. */
  datatype Candidate = Candidate(path: string, segments: seq<string>, extension: Option<Extension>)

  /** `CodeDir`: a counted file. */
  datatype CodeDir = CodeDir(path: string, lines: nat)

  function Lines(d: CodeDir): nat
  {
    d.lines
  }

  /** Everything the loop consults: the registry and the order its map
      iterates in, the exclusion list, and the file system as an oracle. */
  datatype Setup = Setup(table: LanguageTable, order: seq<Language>, excludedDirs: seq<string>,
                         read: string -> ReadResult)

  predicate ValidSetup(env: Setup)
  {
    forall i :: 0 <= i < |env.order| ==> env.order[i] in env.table
  }

  /** What the loop body makes of one path. */
  datatype Decision = Skip | Unreadable(message: string) | Counted(language: Language, lines: nat)

  /** The loop body's decision: excluded paths, paths without an extension and
      paths whose extension no language lists are skipped silently; a failed
      read is reported; anything else is counted. */
  function Classify(c: Candidate, env: Setup): (d: Decision)
    requires ValidSetup(env)
    ensures Excluded(c.segments, env.excludedDirs) ==> d == Skip
    ensures c.extension == None ==> d == Skip
    ensures c.extension.Some? && (forall l :: l in env.table ==> c.extension.value !in env.table[l]) ==> d == Skip
    ensures d.Unreadable? ==> env.read(c.path) == ReadFailed(d.message)
    ensures d.Counted? <==> (&& !Excluded(c.segments, env.excludedDirs)
                             && c.extension.Some?
                             && Lookup(env.table, env.order, c.extension.value).Some?
                             && env.read(c.path).Content?)
    ensures d.Unreadable? <==> (&& !Excluded(c.segments, env.excludedDirs)
                                && c.extension.Some?
                                && Lookup(env.table, env.order, c.extension.value).Some?
                                && env.read(c.path).ReadFailed?)
    ensures d.Counted? ==> d.language in env.table && c.extension.value in env.table[d.language]
                           && d.lines == multiset(env.read(c.path).text)['\n']
    ensures d.Counted? ==> Lookup(env.table, env.order, c.extension.value) == Some(d.language)
  {
    if Excluded(c.segments, env.excludedDirs) then Skip
    else match c.extension
      case None => Skip
      case Some(e) =>
        match Lookup(env.table, env.order, e)
        case None => Skip
        case Some(language) =>
          match LinesRead(env.read(c.path))
          case Err(message) => Unreadable(message)
          case Ok(n) => Counted(language, n)
  }

  /** The loop's state: `dirs`, `line_count`, and the error lines printed so far. */
  datatype State = State(dirs: seq<CodeDir>, lineCount: map<Language, nat>, errors: seq<string>)

  const Initial := State([], map[], [])

  /** `line_count.get_mut(lang)`: add to an existing total, or insert the
      first one. */
  function AddLines(m: map<Language, nat>, language: Language, n: nat): (r: map<Language, nat>)
    ensures r.Keys == m.Keys + {language}
    ensures r[language] == (if language in m then m[language] else 0) + n
    ensures forall l :: l in m && l != language ==> r[l] == m[l]
  {
    if language in m then m[language := m[language] + n] else m[language := n]
  }

  /** One iteration of the loop. Languages only gain keys and totals only
      grow, and the step adds the same number of lines to the totals as to
      the records, so their difference is kept. */
  function Step(s: State, c: Candidate, env: Setup): (r: State)
    requires ValidSetup(env)
    ensures s.lineCount.Keys <= r.lineCount.Keys
    ensures forall l :: l in s.lineCount ==> r.lineCount[l] >= s.lineCount[l]
    ensures MapSum(r.lineCount) + SumKeys(s.dirs, Lines) == MapSum(s.lineCount) + SumKeys(r.dirs, Lines)
    ensures Classify(c, env).Skip? ==> r == s
    ensures Classify(c, env).Unreadable? ==>
              && r.dirs == s.dirs && r.lineCount == s.lineCount
              && r.errors == s.errors + ["Error: " + Classify(c, env).message]
    ensures Classify(c, env).Counted? ==>
              && r.dirs == s.dirs + [CodeDir(c.path, Classify(c, env).lines)]
              && r.lineCount == AddLines(s.lineCount, Classify(c, env).language, Classify(c, env).lines)
              && MapSum(r.lineCount) == MapSum(s.lineCount) + Classify(c, env).lines
              && r.errors == s.errors
  {
    match Classify(c, env)
    case Skip => s
    case Unreadable(message) => s.(errors := s.errors + ["Error: " + message])
    case Counted(language, n) =>
      var m := s.lineCount;
      MapSumUpdate(m, language, (if language in m then m[language] else 0) + n);
      assert AddLines(m, language, n) == m[language := (if language in m then m[language] else 0) + n];
      SumKeysAppend(s.dirs, CodeDir(c.path, n), Lines);
      State(s.dirs + [CodeDir(c.path, n)], AddLines(m, language, n), s.errors)
  }

  /** The whole loop over the walk, in walk order. */
  function Run(walk: seq<Candidate>, env: Setup): State
    requires ValidSetup(env)
  {
    if |walk| == 0 then Initial
    else Step(Run(walk[..|walk| - 1], env), walk[|walk| - 1], env)
  }

  /** The walk with its excluded candidates removed, in walk order. */
  function Kept(walk: seq<Candidate>, env: Setup): (r: seq<Candidate>)
    requires ValidSetup(env)
    ensures |r| <= |walk|
    ensures forall i :: 0 <= i < |r| ==> r[i] in walk && !Excluded(r[i].segments, env.excludedDirs)
    ensures forall i :: 0 <= i < |walk| && !Excluded(walk[i].segments, env.excludedDirs) ==> walk[i] in r
  {
    if |walk| == 0 then []
    else
      var c := walk[|walk| - 1];
      var prefix := walk[..|walk| - 1];
      assert forall i :: 0 <= i < |prefix| ==> prefix[i] == walk[i];
      Kept(prefix, env) + (if Excluded(c.segments, env.excludedDirs) then [] else [c])
  }

  /** Excluded candidates have no effect on the loop: it ends in the same
      state, records, totals and error lines alike, on the walk with them
      removed. */
  lemma {:induction false} RunIgnoresExcluded(walk: seq<Candidate>, env: Setup)
    requires ValidSetup(env)
    ensures Run(walk, env) == Run(Kept(walk, env), env)
  {
    if |walk| > 0 {
      var prefix := walk[..|walk| - 1];
      var c := walk[|walk| - 1];
      var kept := Kept(walk, env);
      RunIgnoresExcluded(prefix, env);
      assert Run(walk, env) == Step(Run(prefix, env), c, env);
      if Excluded(c.segments, env.excludedDirs) {
        assert kept == Kept(prefix, env);
        assert Classify(c, env) == Skip;
        assert Run(walk, env) == Run(prefix, env);
      } else {
        assert kept == Kept(prefix, env) + [c];
        assert kept[..|kept| - 1] == Kept(prefix, env);
        assert Run(kept, env) == Step(Run(Kept(prefix, env), env), c, env);
      }
    }
  }

  /** Nothing below an excluded directory survives into the kept walk, at
      any depth, so by `RunIgnoresExcluded` no such file reaches a record, a
      total or an error line. */
  lemma SubtreeNotKept(walk: seq<Candidate>, env: Setup, dir: seq<string>, below: seq<string>, c: Candidate)
    requires ValidSetup(env)
    requires Excluded(dir, env.excludedDirs)
    requires c.segments == dir + below
    ensures c !in Kept(walk, env)
  {
    DescendantsExcluded(dir, below, env.excludedDirs);
  }

  // An independent account of the loop's result: the accepted files, listed.

  datatype Accepted = Accepted(path: string, language: Language, lines: nat)

  function AcceptedFiles(walk: seq<Candidate>, env: Setup): seq<Accepted>
    requires ValidSetup(env)
  {
    if |walk| == 0 then []
    else
      var c := walk[|walk| - 1];
      AcceptedFiles(walk[..|walk| - 1], env)
        + match Classify(c, env)
          case Counted(language, n) => [Accepted(c.path, language, n)]
          case _ => []
  }

  /** The error line of every path that passes the exclusion and extension
      tests but cannot be read, in walk order. */
  function ReadErrors(walk: seq<Candidate>, env: Setup): seq<string>
    requires ValidSetup(env)
  {
    if |walk| == 0 then []
    else
      var c := walk[|walk| - 1];
      ReadErrors(walk[..|walk| - 1], env)
        + if && !Excluded(c.segments, env.excludedDirs)
             && c.extension.Some?
             && Lookup(env.table, env.order, c.extension.value).Some?
             && env.read(c.path).ReadFailed?
          then ["Error: " + env.read(c.path).message]
          else []
  }

  function Records(acc: seq<Accepted>): (r: seq<CodeDir>)
    ensures |r| == |acc|
    ensures forall i :: 0 <= i < |acc| ==> r[i] == CodeDir(acc[i].path, acc[i].lines)
  {
    seq(|acc|, i requires 0 <= i < |acc| => CodeDir(acc[i].path, acc[i].lines))
  }

  /** The lines of all accepted files of `language`. */
  function LanguageLines(acc: seq<Accepted>, language: Language): nat
  {
    if |acc| == 0 then 0
    else LanguageLines(acc[..|acc| - 1], language)
         + (if acc[|acc| - 1].language == language then acc[|acc| - 1].lines else 0)
  }

  predicate HasLanguage(acc: seq<Accepted>, language: Language)
  {
    exists i :: 0 <= i < |acc| && acc[i].language == language
  }

  /** The fold computes exactly the listed account: one record per accepted
      file in walk order, a total for exactly the languages seen, each total
      the sum of the lines of that language's files, and one error line per
      unreadable file in walk order. */
  lemma RunMatchesAccepted(walk: seq<Candidate>, env: Setup)
    requires ValidSetup(env)
    ensures Run(walk, env).errors == ReadErrors(walk, env)
    ensures Run(walk, env).dirs == Records(AcceptedFiles(walk, env))
    ensures forall l :: l in Run(walk, env).lineCount <==> HasLanguage(AcceptedFiles(walk, env), l)
    ensures forall l :: l in Run(walk, env).lineCount ==>
              Run(walk, env).lineCount[l] == LanguageLines(AcceptedFiles(walk, env), l)
  {
    RunErrorsAreReadErrors(walk, env);
    RunRecordsAreAccepted(walk, env);
    RunKeysAreAcceptedLanguages(walk, env);
    RunTotalsAreLanguageLines(walk, env);
  }

  lemma {:induction false} RunRecordsAreAccepted(walk: seq<Candidate>, env: Setup)
    requires ValidSetup(env)
    ensures Run(walk, env).dirs == Records(AcceptedFiles(walk, env))
  {
    if |walk| > 0 {
      var prefix := walk[..|walk| - 1];
      var c := walk[|walk| - 1];
      RunRecordsAreAccepted(prefix, env);
      var acc0 := AcceptedFiles(prefix, env);
      match Classify(c, env)
      case Skip =>
      case Unreadable(_) =>
      case Counted(language, n) =>
        assert Records(acc0 + [Accepted(c.path, language, n)]) == Records(acc0) + [CodeDir(c.path, n)];
    }
  }

  lemma {:induction false} RunKeysAreAcceptedLanguages(walk: seq<Candidate>, env: Setup)
    requires ValidSetup(env)
    ensures forall l :: l in Run(walk, env).lineCount <==> HasLanguage(AcceptedFiles(walk, env), l)
  {
    if |walk| > 0 {
      var prefix := walk[..|walk| - 1];
      var c := walk[|walk| - 1];
      RunKeysAreAcceptedLanguages(prefix, env);
      var acc0 := AcceptedFiles(prefix, env);
      var acc := AcceptedFiles(walk, env);
      match Classify(c, env)
      case Skip =>
        assert acc == acc0;
      case Unreadable(_) =>
        assert acc == acc0;
      case Counted(language, n) =>
        assert acc == acc0 + [Accepted(c.path, language, n)];
        forall l
          ensures HasLanguage(acc, l) <==> HasLanguage(acc0, l) || l == language
        {
          if HasLanguage(acc0, l) {
            var i :| 0 <= i < |acc0| && acc0[i].language == l;
            assert acc[i] == acc0[i];
          }
          if HasLanguage(acc, l) && l != language {
            var i :| 0 <= i < |acc| && acc[i].language == l;
            assert i < |acc0| && acc0[i] == acc[i];
          }
          if l == language {
            assert acc[|acc| - 1].language == l;
          }
        }
    }
  }

  lemma {:induction false} RunTotalsAreLanguageLines(walk: seq<Candidate>, env: Setup)
    requires ValidSetup(env)
    ensures forall l :: l in Run(walk, env).lineCount ==>
              Run(walk, env).lineCount[l] == LanguageLines(AcceptedFiles(walk, env), l)
  {
    if |walk| > 0 {
      var prefix := walk[..|walk| - 1];
      var c := walk[|walk| - 1];
      RunTotalsAreLanguageLines(prefix, env);
      RunKeysAreAcceptedLanguages(prefix, env);
      var acc0 := AcceptedFiles(prefix, env);
      var acc := AcceptedFiles(walk, env);
      match Classify(c, env)
      case Skip =>
        assert acc == acc0;
      case Unreadable(_) =>
        assert acc == acc0;
      case Counted(language, n) =>
        assert acc == acc0 + [Accepted(c.path, language, n)];
        assert acc[..|acc| - 1] == acc0;
        forall l | !HasLanguage(acc0, l)
          ensures LanguageLines(acc0, l) == 0
        {
          NoLanguageNoLines(acc0, l);
        }
    }
  }

  lemma {:induction false} RunErrorsAreReadErrors(walk: seq<Candidate>, env: Setup)
    requires ValidSetup(env)
    ensures Run(walk, env).errors == ReadErrors(walk, env)
  {
    if |walk| > 0 {
      RunErrorsAreReadErrors(walk[..|walk| - 1], env);
    }
  }

  lemma {:induction false} NoLanguageNoLines(acc: seq<Accepted>, language: Language)
    requires !HasLanguage(acc, language)
    ensures LanguageLines(acc, language) == 0
  {
    if |acc| > 0 {
      var p := acc[..|acc| - 1];
      assert forall i :: 0 <= i < |p| ==> p[i] == acc[i];
      NoLanguageNoLines(p, language);
    }
  }

  /** The loop invariant of the totals: the per-language totals add up to the
      lines of all file records, after every iteration. */
  lemma {:induction false} RunTotalsMatchRecords(walk: seq<Candidate>, env: Setup)
    requires ValidSetup(env)
    ensures MapSum(Run(walk, env).lineCount) == SumKeys(Run(walk, env).dirs, Lines)
  {
    if |walk| > 0 {
      var prefix := walk[..|walk| - 1];
      RunTotalsMatchRecords(prefix, env);
    }
  }

  /** Every record's language has a total at least that record's lines. */
  lemma {:induction false} LanguageTotalCoversFile(acc: seq<Accepted>, i: nat)
    requires i < |acc|
    ensures LanguageLines(acc, acc[i].language) >= acc[i].lines
  {
    if i < |acc| - 1 {
      var p := acc[..|acc| - 1];
      assert p[i] == acc[i];
      LanguageTotalCoversFile(p, i);
    }
  }

  /** Every accepted file's language is a key of the loop's totals, and its
      total is at least that file's lines. */
  lemma RunTotalCoversFile(walk: seq<Candidate>, env: Setup, i: nat)
    requires ValidSetup(env)
    requires i < |AcceptedFiles(walk, env)|
    ensures AcceptedFiles(walk, env)[i].language in Run(walk, env).lineCount
    ensures Run(walk, env).lineCount[AcceptedFiles(walk, env)[i].language]
              >= AcceptedFiles(walk, env)[i].lines
  {
    RunMatchesAccepted(walk, env);
    LanguageTotalCoversFile(AcceptedFiles(walk, env), i);
  }

  /** The loop as written: iterate over the walk, mutating `dirs` and
      `line_count`, and collecting the lines `eprintln!` writes. After every
      step the state matches the fold. */
  method Aggregate(walk: seq<Candidate>, env: Setup)
    returns (dirs: seq<CodeDir>, lineCount: map<Language, nat>, errors: seq<string>)
    requires ValidSetup(env)
    ensures errors == ReadErrors(walk, env)
    ensures dirs == Records(AcceptedFiles(walk, env))
    ensures forall l :: l in lineCount <==> HasLanguage(AcceptedFiles(walk, env), l)
    ensures forall l :: l in lineCount ==> lineCount[l] == LanguageLines(AcceptedFiles(walk, env), l)
    ensures MapSum(lineCount) == SumKeys(dirs, Lines)
  {
    dirs := [];
    lineCount := map[];
    errors := [];
    var i := 0;
    while i < |walk|
      invariant 0 <= i <= |walk|
      invariant dirs == Run(walk[..i], env).dirs
      invariant lineCount == Run(walk[..i], env).lineCount
      invariant errors == Run(walk[..i], env).errors
    {
      assert walk[..i + 1][..i] == walk[..i];
      var c := walk[i];
      match Classify(c, env) {
        case Skip =>
        case Unreadable(message) =>
          errors := errors + ["Error: " + message];
        case Counted(language, n) =>
          dirs := dirs + [CodeDir(c.path, n)];
          lineCount := AddLines(lineCount, language, n);
      }
      i := i + 1;
    }
    assert walk[..i] == walk;
    RunMatchesAccepted(walk, env);
    RunTotalsMatchRecords(walk, env);
  }
}

=== FILE: base.dfy ===
/** Failure-carrying wrappers shared by every module of the model. */
module Base {

  /** A value that may be absent, as Rust's `Option`. */
  datatype Option<+T> = None | Some(value: T)

  /** The outcome of an operation that can fail with a message, as Rust's `Result`
      with an `io::Error` rendered through its `Display` text. */
  datatype Result<+T> = Ok(value: T) | Err(message: string)

  /** True when `order` lists every element of `keys` exactly once: the shape of
      one pass of a `HashMap` iterator over a map whose key set is `keys`. */
  predicate IsEnumeration<K>(order: seq<K>, keys: set<K>)
  {
    && (forall i :: 0 <= i < |order| ==> order[i] in keys)
    && (forall k :: k in keys ==> k in order)
    && (forall i, j :: 0 <= i < j < |order| ==> order[i] != order[j])
  }
}

=== FILE: code_lines.dfy ===
/** The program end to end (src/main.rs:81-220 without argument parsing):
    options in, lines on standard output and standard error out. */
module CodeLines {
  import opened Base
  import opened Text
  import opened LineCount
  import opened Languages
  import opened Exclusion
  import opened Sorting
  import opened Totals
  import opened Aggregate
  import opened Report

  /** The parsed command line: `DIR`, each `-e/--exclude-dir`, `-q/--quiet`. */
  datatype Options = Options(dir: Option<string>, excludeDirs: seq<string>, quiet: bool)

  /** What the program cannot compute itself: whether the root exists, the
      paths the walk yields, the file contents, the terminal's columns, and the
      iteration orders of the two hash maps. */
  datatype World = World(rootExists: bool, walk: seq<Candidate>, read: string -> ReadResult,
                         terminal: Option<nat>, languageOrder: seq<Language>,
                         totalsOrder: seq<Language>)

  datatype Output = Output(stdout: seq<string>, stderr: seq<string>)

  /** The directory scanned: `DIR`, or `.` when absent. */
  function Root(o: Options): string
  {
    match o.dir
    case Some(d) => d
    case None => "."
  }

  function SetupOf(o: Options, w: World): Setup
  {
    Setup(Table, w.languageOrder, ExclusionList(o.excludeDirs), w.read)
  }

  predicate ValidWorld(w: World)
  {
    IsEnumeration(w.languageOrder, Table.Keys)
  }

  /** The state the main loop ends in. */
  function Scan(o: Options, w: World): State
    requires ValidWorld(w)
  {
    Run(w.walk, SetupOf(o, w))
  }

  /** The total of all counted lines. */
  ghost function GrandTotal(o: Options, w: World): nat
    requires ValidWorld(w)
  {
    MapSum(Scan(o, w).lineCount)
  }

  /** The verbose report's column arithmetic does not underflow once the grand
      total fits: no other count it prints is larger. */
  lemma {:induction false} GrandTotalFitsAll(o: Options, w: World)
    requires ValidWorld(w)
    requires Fits(GrandTotal(o, w), Width(w.terminal))
    ensures AllFit(Scan(o, w).dirs, Scan(o, w).lineCount, Width(w.terminal))
  {
    var s := Scan(o, w);
    var width := Width(w.terminal);
    RunTotalsMatchRecords(w.walk, SetupOf(o, w));
    forall i | 0 <= i < |s.dirs| && s.dirs[i].lines > 0
      ensures Fits(s.dirs[i].lines, width)
    {
      KeyAtMostSum(s.dirs, Lines, s.dirs[i]);
      DigitsMonotone(s.dirs[i].lines, MapSum(s.lineCount));
    }
    forall l | l in s.lineCount
      ensures Fits(s.lineCount[l], width)
    {
      ValueAtMostSum(s.lineCount, l);
      DigitsMonotone(s.lineCount[l], MapSum(s.lineCount));
    }
  }

  /** One invocation. A missing root prints one error and nothing else. Quiet
      mode prints the total alone; verbose mode prints the banner and the two
      tables. Read errors go to standard error in walk order. */
  function Invoke(o: Options, w: World): (out: Output)
    requires ValidWorld(w)
    requires w.rootExists ==> IsEnumeration(w.totalsOrder, Scan(o, w).lineCount.Keys)
    requires w.rootExists && !o.quiet ==> Fits(GrandTotal(o, w), Width(w.terminal))
    ensures !w.rootExists ==> out == Output([], ["Directory \"" + Root(o) + "\" not found."])
    ensures w.rootExists && o.quiet ==> out.stdout == [NatToString(GrandTotal(o, w))]
    ensures w.rootExists && o.quiet ==>
              |out.stdout| == 1 && AllDigits(out.stdout[0]) && ParseNat(out.stdout[0]) == GrandTotal(o, w)
    ensures w.rootExists && !o.quiet ==>
              && |out.stdout| == 10 + |Shown(Scan(o, w).dirs)| + |Scan(o, w).lineCount|
              && out.stdout[0] == Banner
              && out.stdout[2] == "Files (" + NatToString(|Scan(o, w).dirs|) + ")"
              && out.stdout[|out.stdout| - 1] == Row("Total:", GrandTotal(o, w), Width(w.terminal))
    ensures w.rootExists ==> out.stderr == Scan(o, w).errors
  {
    if !w.rootExists then
      Output([], ["Directory \"" + Root(o) + "\" not found."])
    else if o.quiet then
      Printed(Scan(o, w), w.totalsOrder, Width(w.terminal), true)
    else
      GrandTotalFitsAll(o, w);
      Printed(Scan(o, w), w.totalsOrder, Width(w.terminal), false)
  }

  /** What an invocation prints once the loop has ended in state `s`. */
  function Printed(s: State, order: seq<Language>, width: nat, quiet: bool): (out: Output)
    requires IsEnumeration(order, s.lineCount.Keys)
    requires !quiet ==> AllFit(s.dirs, s.lineCount, width)
    ensures quiet ==> out.stdout == [NatToString(MapSum(s.lineCount))]
    ensures quiet ==>
              |out.stdout| == 1 && AllDigits(out.stdout[0]) && ParseNat(out.stdout[0]) == MapSum(s.lineCount)
    ensures !quiet ==> out.stdout == [Banner] + Verbose(s.dirs, s.lineCount, order, width)
    ensures !quiet ==>
              && |out.stdout| == 10 + |Shown(s.dirs)| + |s.lineCount|
              && out.stdout[0] == Banner
              && out.stdout[2] == "Files (" + NatToString(|s.dirs|) + ")"
              && out.stdout[|out.stdout| - 1] == Row("Total:", MapSum(s.lineCount), width)
    ensures out.stderr == s.errors
  {
    if quiet then Output(Quiet(s.lineCount, order), s.errors)
    else
      var report := Verbose(s.dirs, s.lineCount, order, width);
      var stdout := [Banner] + report;
      assert stdout[2] == report[1] && stdout[|stdout| - 1] == report[|report| - 1];
      Output(stdout, s.errors)
  }

  /** In verbose mode standard output is the banner followed by the verbose
      report, whose line groups `Report.VerboseLists` gives: the file table,
      the language table, a rule of `-`, a blank line and the `Total:` row. */
  lemma InvokePrintsReport(o: Options, w: World)
    requires ValidWorld(w) && w.rootExists && !o.quiet
    requires IsEnumeration(w.totalsOrder, Scan(o, w).lineCount.Keys)
    requires Fits(GrandTotal(o, w), Width(w.terminal))
    ensures AllFit(Scan(o, w).dirs, Scan(o, w).lineCount, Width(w.terminal))
    ensures Invoke(o, w).stdout
              == [Banner] + Verbose(Scan(o, w).dirs, Scan(o, w).lineCount, w.totalsOrder, Width(w.terminal))
  {
    GrandTotalFitsAll(o, w);
  }

  /** The quiet total is the sum of the lines of every counted file, zero-line
      files included, and it does not depend on either map's iteration order. */
  lemma QuietTotalIsLinesOfAllFiles(o: Options, w: World)
    requires ValidWorld(w) && w.rootExists && o.quiet
    requires IsEnumeration(w.totalsOrder, Scan(o, w).lineCount.Keys)
    ensures ParseNat(Invoke(o, w).stdout[0]) == SumKeys(Scan(o, w).dirs, Lines)
  {
    RunTotalsMatchRecords(w.walk, SetupOf(o, w));
  }

  /** Verbose and quiet mode report the same total for the same tree. */
  lemma VerboseTotalIsQuietTotal(o: Options, w: World)
    requires ValidWorld(w) && w.rootExists
    requires IsEnumeration(w.totalsOrder, Scan(o, w).lineCount.Keys)
    requires Fits(GrandTotal(o, w), Width(w.terminal))
    ensures var verbose := Invoke(o.(quiet := false), w);
            var quiet := Invoke(o.(quiet := true), w);
            verbose.stdout[|verbose.stdout| - 1]
              == Row("Total:", ParseNat(quiet.stdout[0]), Width(w.terminal))
  {
    assert Scan(o.(quiet := false), w) == Scan(o, w) == Scan(o.(quiet := true), w);
  }

  // A tree with `a.py` (3 newlines), `b.rs` (no newline) and
  // `c.exclude/d.py` (5 newlines), scanned with `--exclude-dir c.exclude`.

  const ScenarioWalk: seq<Candidate> := [
    Candidate(".", ["."], None),
    Candidate("./a.py", [".", "a.py"], Some("py")),
    Candidate("./b.rs", [".", "b.rs"], Some("rs")),
    Candidate("./c.exclude", [".", "c.exclude"], Some("exclude")),
    Candidate("./c.exclude/d.py", [".", "c.exclude", "d.py"], Some("py"))
  ]

  predicate ScenarioFiles(read: string -> ReadResult)
  {
    && read("./a.py") == Content("\n\n\n")
    && read("./b.rs") == Content("x")
    && read("./c.exclude/d.py") == Content("\n\n\n\n\n")
  }

  lemma ScenarioLookups(order: seq<Language>)
    requires IsEnumeration(order, Table.Keys)
    ensures Lookup(Table, order, "py") == Some("Python")
    ensures Lookup(Table, order, "rs") == Some("Rust")
  {
    TableDisjoint();
    TableIsFinalTable();
    assert "py" in FinalTable["Python"] && "rs" in FinalTable["Rust"];
    LookupIsOwnerOfExtension(Table, order, "py", "Python");
    LookupIsOwnerOfExtension(Table, order, "rs", "Rust");
  }

  const ScenarioOptions := Options(None, ["c.exclude"], true)

  lemma ScenarioExclusions()
    ensures ExclusionList(ScenarioOptions.excludeDirs) == ["target", "build", "bin", "dist", ".git", "c.exclude"]
    ensures Excluded(ScenarioWalk[3].segments, ExclusionList(ScenarioOptions.excludeDirs))
    ensures Excluded(ScenarioWalk[4].segments, ExclusionList(ScenarioOptions.excludeDirs))
    ensures !Excluded(ScenarioWalk[1].segments, ExclusionList(ScenarioOptions.excludeDirs))
    ensures !Excluded(ScenarioWalk[2].segments, ExclusionList(ScenarioOptions.excludeDirs))
  {
    var x := ExclusionList(ScenarioOptions.excludeDirs);
    assert ScenarioWalk[3].segments[1] == x[5];
    assert ScenarioWalk[4].segments[1] == x[5];
  }

  /** Conditions on the loop's setup under which the scenario is scanned as
      the real table scans it: `py` is Python, `rs` is Rust. */
  predicate ScenarioSetup(env: Setup)
  {
    && ValidSetup(env) && ScenarioFiles(env.read)
    && env.excludedDirs == ExclusionList(ScenarioOptions.excludeDirs)
    && Lookup(env.table, env.order, "py") == Some("Python")
    && Lookup(env.table, env.order, "rs") == Some("Rust")
  }

  lemma ScenarioSkips(env: Setup)
    requires ScenarioSetup(env)
    ensures Classify(ScenarioWalk[0], env) == Skip
    ensures Classify(ScenarioWalk[3], env) == Skip
    ensures Classify(ScenarioWalk[4], env) == Skip
  {
    ScenarioExclusions();
  }

  lemma ScenarioCountsPython(env: Setup)
    requires ScenarioSetup(env)
    ensures Classify(ScenarioWalk[1], env) == Counted("Python", 3)
  {
    ScenarioExclusions();
    assert CountNewlines("\n\n\n") == 3;
  }

  lemma ScenarioCountsRust(env: Setup)
    requires ScenarioSetup(env)
    ensures Classify(ScenarioWalk[2], env) == Counted("Rust", 0)
  {
    ScenarioExclusions();
    assert CountNewlines("x") == 0;
  }

  lemma ScenarioRunIn(env: Setup)
    requires ScenarioSetup(env)
    ensures Run(ScenarioWalk, env).dirs == [CodeDir("./a.py", 3), CodeDir("./b.rs", 0)]
    ensures Run(ScenarioWalk, env).lineCount == map["Python" := 3, "Rust" := 0]
  {
    var walk := ScenarioWalk;
    ScenarioRunThree(env);
    ScenarioSkips(env);
    RunPrefixStep(walk, env, 4);
    RunPrefixStep(walk, env, 5);
    assert walk[..5] == walk;
  }

  /** The two files outside the excluded directory are both counted. */
  lemma ScenarioRunThree(env: Setup)
    requires ScenarioSetup(env)
    ensures Run(ScenarioWalk[..3], env) ==
              State([CodeDir("./a.py", 3), CodeDir("./b.rs", 0)], map["Python" := 3, "Rust" := 0], [])
  {
    ScenarioRunTwo(env);
    ScenarioCountsRust(env);
    RunPrefixStep(ScenarioWalk, env, 3);
  }

  lemma ScenarioRunTwo(env: Setup)
    requires ScenarioSetup(env)
    ensures Run(ScenarioWalk[..2], env) == State([CodeDir("./a.py", 3)], map["Python" := 3], [])
  {
    var walk := ScenarioWalk;
    ScenarioSkips(env);
    ScenarioCountsPython(env);
    RunPrefixStep(walk, env, 1);
    RunPrefixStep(walk, env, 2);
    assert walk[..0] == [];
  }

  /** The loop after `n` paths is one step after the loop after `n - 1`. */
  lemma RunPrefixStep(walk: seq<Candidate>, env: Setup, n: nat)
    requires ValidSetup(env) && 0 < n <= |walk|
    ensures Run(walk[..n], env) == Step(Run(walk[..n - 1], env), walk[n - 1], env)
  {
    assert walk[..n][..n - 1] == walk[..n - 1];
  }

  lemma ScenarioRun(w: World)
    requires ValidWorld(w) && w.walk == ScenarioWalk && ScenarioFiles(w.read)
    ensures Scan(ScenarioOptions, w).dirs == [CodeDir("./a.py", 3), CodeDir("./b.rs", 0)]
    ensures Scan(ScenarioOptions, w).lineCount == map["Python" := 3, "Rust" := 0]
  {
    ScenarioLookups(w.languageOrder);
    assert ScenarioSetup(SetupOf(ScenarioOptions, w));
    ScenarioRunIn(SetupOf(ScenarioOptions, w));
  }

  /** The excluded subtree contributes nothing: Python totals 3, not 8, Rust
      is present with 0, `d.py` is never listed, and quiet mode prints `3`. */
  lemma ScenarioExcludedSubtree(w: World)
    requires ValidWorld(w) && w.rootExists && w.walk == ScenarioWalk && ScenarioFiles(w.read)
    requires IsEnumeration(w.totalsOrder, {"Python", "Rust"})
    ensures Scan(ScenarioOptions, w).dirs == [CodeDir("./a.py", 3), CodeDir("./b.rs", 0)]
    ensures Scan(ScenarioOptions, w).lineCount == map["Python" := 3, "Rust" := 0]
    ensures Invoke(ScenarioOptions, w).stdout == ["3"]
  {
    ScenarioRun(w);
    var m := Scan(ScenarioOptions, w).lineCount;
    assert MapSum(m) == 3 by {
      SumOnRemove(m, m.Keys, "Python");
      SumOnRemove(m, m.Keys - {"Python"}, "Rust");
      assert m.Keys - {"Python"} - {"Rust"} == {};
    }
    SumOverEnumeration(m, w.totalsOrder);
    assert Invoke(ScenarioOptions, w).stdout == [NatToString(SumOver(m, w.totalsOrder))];
    assert NatToString(3) == "3";
  }

  /** A tree where no file has an extension the registry lists (a file
      without an extension included): empty tables, no error line, total `0`,
      whatever the files hold. */
  lemma ScenarioNothingRecognised(o: Options, w: World)
    requires ValidWorld(w) && w.rootExists && o.quiet
    requires forall i :: 0 <= i < |w.walk| && w.walk[i].extension.Some? ==>
               forall l :: l in Table ==> w.walk[i].extension.value !in Table[l]
    requires w.totalsOrder == []
    ensures Scan(o, w).dirs == [] && Scan(o, w).lineCount == map[]
    ensures Invoke(o, w).stdout == ["0"] && Invoke(o, w).stderr == []
  {
    EmptyScan(o, w, |w.walk|);
    assert w.walk[..|w.walk|] == w.walk;
  }

  /** A tree of Perl modules and documentation alone counts nothing: the
      second `"Perl"` insert dropped `pm` and `pod`. */
  lemma ScenarioPerlModulesIgnored(o: Options, w: World)
    requires ValidWorld(w) && w.rootExists && o.quiet
    requires forall i :: 0 <= i < |w.walk| ==> w.walk[i].extension in {Some("pm"), Some("pod")}
    requires w.totalsOrder == []
    ensures Scan(o, w).dirs == [] && Scan(o, w).lineCount == map[]
    ensures Invoke(o, w).stdout == ["0"] && Invoke(o, w).stderr == []
  {
    TableIsFinalTable();
    UnlistedExtensions();
    ScenarioNothingRecognised(o, w);
  }

  lemma {:induction false} EmptyScan(o: Options, w: World, n: nat)
    requires ValidWorld(w) && n <= |w.walk|
    requires forall i :: 0 <= i < |w.walk| && w.walk[i].extension.Some? ==>
               forall l :: l in Table ==> w.walk[i].extension.value !in Table[l]
    ensures Run(w.walk[..n], SetupOf(o, w)) == Initial
  {
    if n > 0 {
      assert w.walk[..n][..n - 1] == w.walk[..n - 1];
      EmptyScan(o, w, n - 1);
    }
  }
}

=== FILE: exclusion.dfy ===
/** The exclusion list (src/main.rs:81-95) and the per-path segment test
    (src/main.rs:125-141). */
module Exclusion {

  /** Directory names skipped whatever the command line says. */
  const DefaultExcludedDirs: seq<string> := ["target", "build", "bin", "dist", ".git"]

  /** The list the run tests against: the defaults, then the `--exclude-dir`
      values in the order given. */
  function ExclusionList(userDirs: seq<string>): seq<string>
  {
    DefaultExcludedDirs + userDirs
  }

  /** The start-up code building the list: five pushes of the defaults, then
      one push per `--exclude-dir` value. */
  method ExcludedDirs(userDirs: seq<string>) returns (dirs: seq<string>)
    ensures |dirs| == |DefaultExcludedDirs| + |userDirs|
    ensures dirs[..|DefaultExcludedDirs|] == DefaultExcludedDirs
    ensures dirs[|DefaultExcludedDirs|..] == userDirs
    ensures forall d :: d in DefaultExcludedDirs ==> d in dirs
    ensures dirs == ExclusionList(userDirs)
  {
    dirs := [];
    dirs := dirs + ["target"];
    dirs := dirs + ["build"];
    dirs := dirs + ["bin"];
    dirs := dirs + ["dist"];
    dirs := dirs + [".git"];
    var i := 0;
    while i < |userDirs|
      invariant 0 <= i <= |userDirs|
      invariant dirs == DefaultExcludedDirs + userDirs[..i]
    {
      dirs := dirs + [userDirs[i]];
      i := i + 1;
    }
    assert userDirs[..i] == userDirs;
  }

  /** A path is skipped when one of its segments equals one of the excluded
      names exactly (`part.to_str().unwrap().eq(*dir)`). */
  predicate Excluded(segments: seq<string>, excludedDirs: seq<string>)
  {
    exists i :: 0 <= i < |segments| && segments[i] in excludedDirs
  }

  /** The nested loop of the walk: scan the segments, and for each segment the
      excluded names, breaking out of both loops at the first equal pair. */
  method IsExcluded(segments: seq<string>, excludedDirs: seq<string>) returns (excluded: bool)
    ensures excluded <==> exists i, j :: 0 <= i < |segments| && 0 <= j < |excludedDirs|
                                         && segments[i] == excludedDirs[j]
    ensures excluded == Excluded(segments, excludedDirs)
  {
    excluded := false;
    var i := 0;
    while i < |segments|
      invariant 0 <= i <= |segments|
      invariant !excluded
      invariant forall i', j :: 0 <= i' < i && 0 <= j < |excludedDirs| ==> segments[i'] != excludedDirs[j]
    {
      var j := 0;
      while j < |excludedDirs|
        invariant 0 <= j <= |excludedDirs|
        invariant !excluded
        invariant forall j' :: 0 <= j' < j ==> segments[i] != excludedDirs[j']
      {
        if segments[i] == excludedDirs[j] {
          excluded := true;
          break;
        }
        j := j + 1;
      }
      if excluded {
        break;
      }
      i := i + 1;
    }
    IsExcludedMeansExcluded(segments, excludedDirs);
  }

  /** The loop and the predicate agree. */
  lemma IsExcludedMeansExcluded(segments: seq<string>, excludedDirs: seq<string>)
    ensures Excluded(segments, excludedDirs) <==>
            exists i, j :: 0 <= i < |segments| && 0 <= j < |excludedDirs| && segments[i] == excludedDirs[j]
  {
    if Excluded(segments, excludedDirs) {
      var i :| 0 <= i < |segments| && segments[i] in excludedDirs;
      var j :| 0 <= j < |excludedDirs| && excludedDirs[j] == segments[i];
    }
  }

  /** The walk tests every path it yields rather than pruning: every path below
      an excluded one carries the same segment and is excluded in turn. */
  lemma DescendantsExcluded(segments: seq<string>, below: seq<string>, excludedDirs: seq<string>)
    requires Excluded(segments, excludedDirs)
    ensures Excluded(segments + below, excludedDirs)
  {
    var i :| 0 <= i < |segments| && segments[i] in excludedDirs;
    assert (segments + below)[i] == segments[i];
  }

  /** A default name anywhere in the path excludes it, whatever was added on
      the command line. */
  lemma DefaultsAlwaysApply(segments: seq<string>, userDirs: seq<string>, i: nat)
    requires i < |segments| && segments[i] in DefaultExcludedDirs
    ensures Excluded(segments, ExclusionList(userDirs))
  {
    assert segments[i] in ExclusionList(userDirs);
  }

  /** Adding names to the list only ever excludes more paths. */
  lemma MoreNamesExcludeMore(segments: seq<string>, dirs: seq<string>, more: seq<string>)
    requires Excluded(segments, dirs)
    ensures Excluded(segments, dirs + more)
  {
    var i :| 0 <= i < |segments| && segments[i] in dirs;
    assert segments[i] in dirs + more;
  }

  /** Matching is whole-segment equality, not substring: `buildx` and
      `my-target` are not excluded by the defaults. */
  lemma ExactSegmentMatch()
    ensures !Excluded([".", "buildx", "main.rs"], DefaultExcludedDirs)
    ensures !Excluded([".", "my-target", "lib.rs"], DefaultExcludedDirs)
    ensures Excluded([".", "build", "main.rs"], DefaultExcludedDirs)
  {
    var p := [".", "build", "main.rs"];
    assert p[1] == DefaultExcludedDirs[1];
  }

  /** The root's own segments are tested too: scanning a root that lies
      inside a `build` directory excludes every path of the walk. */
  lemma ExcludedRootExcludesEverything(root: seq<string>, rest: seq<string>, i: nat)
    requires i < |root| && root[i] == "build"
    ensures Excluded(root + rest, DefaultExcludedDirs)
  {
    assert (root + rest)[i] == "build";
    assert "build" == DefaultExcludedDirs[1];
  }
}

=== FILE: languages.dfy ===
/** The language registry (src/main.rs:45-79) and extension lookup
    (src/main.rs:143-147). */
module Languages {
  import opened Base

  type Language = string
  type Extension = string

  /** Language name to the extensions (without the dot) that select it. */
  type LanguageTable = map<Language, seq<Extension>>

  /** The registry exactly as built at start-up: one map update per `insert`,
      in source order. `"Perl"` is inserted twice; the second update replaces
      the first, so Perl keeps only `"pl"`. */
  const Table: LanguageTable :=
    map[]
      ["Python" := ["py", "pyi", "pyc", "pyw"]]
      ["JavaScript" := ["js", "jsx"]]
      ["Java" := ["java"]]
      ["C/C++" := ["cpp", "cxx", "hpp", "hxx", "c", "cc", "h"]]
      ["C#" := ["cs", "csx"]]
      ["PHP" := ["php", "phtml", "php3", "php4", "php5", "php7", "phps", "php-s", "pht", "phar"]]
      ["Perl" := ["plx", "pl", "pm", "xs", "t", "pod"]]
      ["Rust" := ["rs"]]
      ["HTML" := ["html", "htm"]]
      ["Shell script" := ["sh"]]
      ["TypeScript" := ["ts", "tsx"]]
      ["Batch script" := ["bat", "cmd"]]
      ["R" := ["r"]]
      ["Objective-C" := ["m", "mm", "M"]]
      ["Swift" := ["swift"]]
      ["Kotlin" := ["kt"]]
      ["Go" := ["go"]]
      ["Ruby" := ["rb"]]
      ["Scala" := ["scala"]]
      ["Ada" := ["ada"]]
      ["Dart" := ["dart"]]
      ["Lua" := ["lua"]]
      ["Perl" := ["pl"]]
      ["Groovy" := ["gradle", "groovy"]]
      ["Julia" := ["jl"]]
      ["Cobol" := ["cobol"]]
      ["Pascal" := ["pas"]]
      ["Haskell" := ["hs"]]
      ["GDScript" := ["gd"]]

  /** The registry as it stands once start-up is over: the display of the
      28 distinct languages, Perl with its second extension list. */
  const FinalTable: LanguageTable := map[
    "Python" := ["py", "pyi", "pyc", "pyw"],
    "JavaScript" := ["js", "jsx"],
    "Java" := ["java"],
    "C/C++" := ["cpp", "cxx", "hpp", "hxx", "c", "cc", "h"],
    "C#" := ["cs", "csx"],
    "PHP" := ["php", "phtml", "php3", "php4", "php5", "php7", "phps", "php-s", "pht", "phar"],
    "Rust" := ["rs"],
    "HTML" := ["html", "htm"],
    "Shell script" := ["sh"],
    "TypeScript" := ["ts", "tsx"],
    "Batch script" := ["bat", "cmd"],
    "R" := ["r"],
    "Objective-C" := ["m", "mm", "M"],
    "Swift" := ["swift"],
    "Kotlin" := ["kt"],
    "Go" := ["go"],
    "Ruby" := ["rb"],
    "Scala" := ["scala"],
    "Ada" := ["ada"],
    "Dart" := ["dart"],
    "Lua" := ["lua"],
    "Perl" := ["pl"],
    "Groovy" := ["gradle", "groovy"],
    "Julia" := ["jl"],
    "Cobol" := ["cobol"],
    "Pascal" := ["pas"],
    "Haskell" := ["hs"],
    "GDScript" := ["gd"]
  ]

  /** The second `"Perl"` insert replaces the first wholesale: the table holds
      28 languages, and Perl's extensions `plx`, `pm`, `xs`, `t` and `pod` are
      gone. */
  lemma TableIsFinalTable()
    ensures Table == FinalTable
    ensures Table["Perl"] == ["pl"]
  {
  }

  /** No extension is claimed by two languages. */
  ghost predicate Disjoint(t: LanguageTable)
  {
    forall l1, l2, e :: l1 in t && l2 in t && l1 != l2 && e in t[l1] ==> e !in t[l2]
  }

  /** The registry read backwards: the language that claims extension `e`,
      dispatched on the length and first character of `e`. Every listed
      extension having a single owner is what makes the registry disjoint.
      It is a proof device only: nothing at run time consults it, and
      `OwnerCoversTable` ties it entry by entry to `Table`. */
  function Owner(e: Extension): Option<Language>
  {
    if |e| == 1 then
      if e[0] == 'M' then
        if e == "M" then Some("Objective-C") else None
      else
      if e[0] == 'c' then
        if e == "c" then Some("C/C++") else None
      else
      if e[0] == 'h' then
        if e == "h" then Some("C/C++") else None
      else
      if e[0] == 'm' then
        if e == "m" then Some("Objective-C") else None
      else
      if e[0] == 'r' then
        if e == "r" then Some("R") else None
      else
      None
    else
    if |e| == 2 then
      if e[0] == 'c' then
        if e == "cc" then Some("C/C++") else
        if e == "cs" then Some("C#") else None
      else
      if e[0] == 'g' then
        if e == "go" then Some("Go") else
        if e == "gd" then Some("GDScript") else None
      else
      if e[0] == 'h' then
        if e == "hs" then Some("Haskell") else None
      else
      if e[0] == 'j' then
        if e == "js" then Some("JavaScript") else
        if e == "jl" then Some("Julia") else None
      else
      if e[0] == 'k' then
        if e == "kt" then Some("Kotlin") else None
      else
      if e[0] == 'm' then
        if e == "mm" then Some("Objective-C") else None
      else
      if e[0] == 'p' then
        if e == "py" then Some("Python") else
        if e == "pl" then Some("Perl") else None
      else
      if e[0] == 'r' then
        if e == "rs" then Some("Rust") else
        if e == "rb" then Some("Ruby") else None
      else
      if e[0] == 's' then
        if e == "sh" then Some("Shell script") else None
      else
      if e[0] == 't' then
        if e == "ts" then Some("TypeScript") else None
      else
      None
    else
    if |e| == 3 then
      if e[0] == 'a' then
        if e == "ada" then Some("Ada") else None
      else
      if e[0] == 'b' then
        if e == "bat" then Some("Batch script") else None
      else
      if e[0] == 'c' then
        if e == "cpp" then Some("C/C++") else
        if e == "cxx" then Some("C/C++") else
        if e == "csx" then Some("C#") else
        if e == "cmd" then Some("Batch script") else None
      else
      if e[0] == 'h' then
        if e == "hpp" then Some("C/C++") else
        if e == "hxx" then Some("C/C++") else
        if e == "htm" then Some("HTML") else None
      else
      if e[0] == 'j' then
        if e == "jsx" then Some("JavaScript") else None
      else
      if e[0] == 'l' then
        if e == "lua" then Some("Lua") else None
      else
      if e[0] == 'p' then
        if e == "pyi" then Some("Python") else
        if e == "pyc" then Some("Python") else
        if e == "pyw" then Some("Python") else
        if e == "php" then Some("PHP") else
        if e == "pht" then Some("PHP") else
        if e == "pas" then Some("Pascal") else None
      else
      if e[0] == 't' then
        if e == "tsx" then Some("TypeScript") else None
      else
      None
    else
    if |e| == 4 then
      if e[0] == 'd' then
        if e == "dart" then Some("Dart") else None
      else
      if e[0] == 'h' then
        if e == "html" then Some("HTML") else None
      else
      if e[0] == 'j' then
        if e == "java" then Some("Java") else None
      else
      if e[0] == 'p' then
        if e == "php3" then Some("PHP") else
        if e == "php4" then Some("PHP") else
        if e == "php5" then Some("PHP") else
        if e == "php7" then Some("PHP") else
        if e == "phps" then Some("PHP") else
        if e == "phar" then Some("PHP") else None
      else
      None
    else
    if |e| == 5 then
      if e[0] == 'c' then
        if e == "cobol" then Some("Cobol") else None
      else
      if e[0] == 'p' then
        if e == "phtml" then Some("PHP") else
        if e == "php-s" then Some("PHP") else None
      else
      if e[0] == 's' then
        if e == "swift" then Some("Swift") else
        if e == "scala" then Some("Scala") else None
      else
      None
    else
    if |e| == 6 then
      if e[0] == 'g' then
        if e == "gradle" then Some("Groovy") else
        if e == "groovy" then Some("Groovy") else None
      else
      None
    else
    None
  }

  // Each listed extension of each language is owned by that language.

  lemma OwnerCoversPythonToJava()
    ensures forall l, e :: l in {"Python", "JavaScript", "Java"} && e in FinalTable[l] ==> Owner(e) == Some(l)
  {
  }

  lemma OwnerCoversCFamily()
    ensures forall l, e :: l in {"C/C++", "C#"} && e in FinalTable[l] ==> Owner(e) == Some(l)
  {
  }

  lemma OwnerCoversPhp()
    ensures forall l, e :: l in {"PHP"} && e in FinalTable[l] ==> Owner(e) == Some(l)
  {
  }

  lemma OwnerCoversRustToObjectiveC()
    ensures forall l, e :: l in {"Rust", "HTML", "Shell script", "TypeScript", "Batch script", "R", "Objective-C"} && e in FinalTable[l] ==> Owner(e) == Some(l)
  {
  }

  lemma OwnerCoversSwiftToGdscript()
    ensures forall l, e :: l in {"Swift", "Kotlin", "Go", "Ruby", "Scala", "Ada", "Dart", "Lua", "Perl", "Groovy", "Julia", "Cobol", "Pascal", "Haskell", "GDScript"} && e in FinalTable[l] ==> Owner(e) == Some(l)
  {
  }

  /** Every extension a language lists is owned by that language alone. */
  lemma OwnerCoversTable(l: Language, e: Extension)
    requires l in Table && e in Table[l]
    ensures Owner(e) == Some(l)
  {
    TableIsFinalTable();
    OwnerCoversPythonToJava();
    OwnerCoversCFamily();
    OwnerCoversPhp();
    OwnerCoversRustToObjectiveC();
    OwnerCoversSwiftToGdscript();
  }

  /** The registry's extension lists are pairwise disjoint. */
  lemma TableDisjoint()
    ensures Disjoint(Table)
  {
    forall l1, l2, e | l1 in Table && l2 in Table && l1 != l2 && e in Table[l1]
      ensures e !in Table[l2]
    {
      OwnerCoversTable(l1, e);
      if e in Table[l2] {
        OwnerCoversTable(l2, e);
      }
    }
  }

  /** `languages.iter().find(|(_, exts)| exts.contains(&ext))`: the first
      language, in the map's iteration order `order`, whose list contains `e`. */
  function Lookup(t: LanguageTable, order: seq<Language>, e: Extension): (r: Option<Language>)
    requires forall i :: 0 <= i < |order| ==> order[i] in t
    ensures r.Some? ==> r.value in t && e in t[r.value]
    ensures r.Some? ==> exists i :: 0 <= i < |order| && order[i] == r.value
                                  && forall j :: 0 <= j < i ==> e !in t[order[j]]
    ensures r.None? <==> forall i :: 0 <= i < |order| ==> e !in t[order[i]]
  {
    if |order| == 0 then None
    else if e in t[order[0]] then Some(order[0])
    else
      var r := Lookup(t, order[1..], e);
      assert forall i :: 1 <= i < |order| ==> order[i] == order[1..][i - 1];
      r
  }

  /** With disjoint extension lists the iteration order of the map does not
      matter: `Some(l)` exactly when `l` lists `e`, `None` when no language does. */
  lemma LookupIsOwnerOfExtension(t: LanguageTable, order: seq<Language>, e: Extension, l: Language)
    requires Disjoint(t)
    requires IsEnumeration(order, t.Keys)
    ensures Lookup(t, order, e) == Some(l) <==> l in t && e in t[l]
    ensures Lookup(t, order, e) == None <==> forall l' :: l' in t ==> e !in t[l']
  {
    if l in t && e in t[l] {
      var i :| 0 <= i < |order| && order[i] == l;
    }
    var r := Lookup(t, order, e);
    if r == None {
      forall l' | l' in t
        ensures e !in t[l']
      {
        var i :| 0 <= i < |order| && order[i] == l';
      }
    }
  }

  /** Two iteration orders of the same disjoint table find the same language. */
  lemma LookupOrderIndependent(t: LanguageTable, o1: seq<Language>, o2: seq<Language>, e: Extension)
    requires Disjoint(t)
    requires IsEnumeration(o1, t.Keys) && IsEnumeration(o2, t.Keys)
    ensures Lookup(t, o1, e) == Lookup(t, o2, e)
  {
    var r := Lookup(t, o1, e);
    if r.Some? {
      LookupIsOwnerOfExtension(t, o1, e, r.value);
      LookupIsOwnerOfExtension(t, o2, e, r.value);
    } else {
      LookupIsOwnerOfExtension(t, o1, e, "");
      LookupIsOwnerOfExtension(t, o2, e, "");
    }
  }

  /** Extensions no language lists once start-up is over: the five Perl
      extensions the second insert drops, and an upper-case `H`. */
  lemma UnlistedExtensions()
    ensures forall l :: l in FinalTable ==> "pm" !in FinalTable[l]
    ensures forall l :: l in FinalTable ==> "pod" !in FinalTable[l]
    ensures forall l :: l in FinalTable ==> "plx" !in FinalTable[l]
    ensures forall l :: l in FinalTable ==> "xs" !in FinalTable[l]
    ensures forall l :: l in FinalTable ==> "t" !in FinalTable[l]
    ensures forall l :: l in FinalTable ==> "H" !in FinalTable[l]
  {
    UnlistedPm();
    UnlistedPod();
    UnlistedPlx();
    UnlistedXs();
    UnlistedT();
    UnlistedUpperH();
  }

  lemma UnlistedPm()
    ensures forall l :: l in FinalTable ==> "pm" !in FinalTable[l]
  {
  }

  lemma UnlistedPod()
    ensures forall l :: l in FinalTable ==> "pod" !in FinalTable[l]
  {
  }

  lemma UnlistedPlx()
    ensures forall l :: l in FinalTable ==> "plx" !in FinalTable[l]
  {
  }

  lemma UnlistedXs()
    ensures forall l :: l in FinalTable ==> "xs" !in FinalTable[l]
  {
  }

  lemma UnlistedT()
    ensures forall l :: l in FinalTable ==> "t" !in FinalTable[l]
  {
  }

  lemma UnlistedUpperH()
    ensures forall l :: l in FinalTable ==> "H" !in FinalTable[l]
  {
  }

  /** Perl's first extension list is lost: `.pl` is Perl, and `.pm`,
      `.pod`, `.plx`, `.xs` and `.t` are nothing. */
  lemma PerlKeepsOnlyPl(order: seq<Language>)
    requires IsEnumeration(order, Table.Keys)
    ensures Lookup(Table, order, "pl") == Some("Perl")
    ensures Lookup(Table, order, "pm") == None
    ensures Lookup(Table, order, "pod") == None
    ensures Lookup(Table, order, "plx") == None
    ensures Lookup(Table, order, "xs") == None
    ensures Lookup(Table, order, "t") == None
  {
    TableDisjoint();
    TableIsFinalTable();
    assert "pl" in FinalTable["Perl"];
    LookupIsOwnerOfExtension(Table, order, "pl", "Perl");
    DroppedPerlExtensions(order, "pm");
    DroppedPerlExtensions(order, "pod");
    DroppedPerlExtensions(order, "plx");
    DroppedPerlExtensions(order, "xs");
    DroppedPerlExtensions(order, "t");
  }

  /** An extension no language lists after start-up finds nothing. */
  lemma DroppedPerlExtensions(order: seq<Language>, e: Extension)
    requires IsEnumeration(order, Table.Keys)
    requires e in {"pm", "pod", "plx", "xs", "t"}
    ensures Lookup(Table, order, e) == None
  {
    TableDisjoint();
    TableIsFinalTable();
    UnlistedExtensions();
    LookupIsOwnerOfExtension(Table, order, e, "Perl");
  }

  /** Matching is exact and case-sensitive: `h` is C/C++, `H` is claimed by
      no language, while `M` is listed explicitly for Objective-C. */
  lemma LookupIsCaseSensitive(order: seq<Language>)
    requires IsEnumeration(order, Table.Keys)
    ensures Lookup(Table, order, "h") == Some("C/C++")
    ensures Lookup(Table, order, "H") == None
    ensures Lookup(Table, order, "M") == Some("Objective-C")
  {
    TableDisjoint();
    TableIsFinalTable();
    assert "h" in FinalTable["C/C++"] && "M" in FinalTable["Objective-C"];
    LookupIsOwnerOfExtension(Table, order, "h", "C/C++");
    UnlistedExtensions();
    LookupIsOwnerOfExtension(Table, order, "H", "C/C++");
    LookupIsOwnerOfExtension(Table, order, "M", "Objective-C");
  }
}

=== FILE: line_count.dfy ===
/** `count_lines_of_code` (src/main.rs:11-16): read the whole file as text and
    count its newline characters. The file system is an oracle whose answer is
    either the decoded content or an error message. */
module LineCount {
  import opened Base

  /** What reading one file yields: its text, or the error `read_to_string`
      reported (missing file, permission denied, invalid UTF-8, a directory). */
  datatype ReadResult = Content(text: string) | ReadFailed(message: string)

  /** The number of `'\n'` characters in `s`, counted front to back as
      `chars().filter(..).count()` does. */
  function CountNewlines(s: string): nat
  {
    if |s| == 0 then 0
    else (if s[0] == '\n' then 1 else 0) + CountNewlines(s[1..])
  }

  /** The count is the multiplicity of `'\n'` in the content, whatever its order. */
  lemma {:induction false} CountIsMultiplicity(s: string)
    ensures CountNewlines(s) == multiset(s)['\n']
  {
    if |s| > 0 {
      CountIsMultiplicity(s[1..]);
      assert s == [s[0]] + s[1..];
      assert multiset(s) == multiset([s[0]]) + multiset(s[1..]);
    }
  }

  /** Counting is additive over concatenation of contents. */
  lemma {:induction false} CountAppend(a: string, b: string)
    ensures CountNewlines(a + b) == CountNewlines(a) + CountNewlines(b)
  {
    if |a| > 0 {
      assert (a + b)[1..] == a[1..] + b;
      CountAppend(a[1..], b);
    } else {
      assert a + b == b;
    }
  }

  /** At most one line per character. */
  lemma {:induction false} CountAtMostLength(s: string)
    ensures CountNewlines(s) <= |s|
  {
    if |s| > 0 {
      CountAtMostLength(s[1..]);
    }
  }

  /** A last physical line without a terminating newline adds nothing: content
      with `k` newlines reports `k`, never `k + 1`. */
  lemma NoTrailingNewlineNoExtraLine(s: string, c: char)
    requires c != '\n'
    ensures CountNewlines(s + [c]) == CountNewlines(s)
  {
    CountAppend(s, [c]);
  }

  /** Each terminated line adds exactly one. */
  lemma TerminatedLineAddsOne(s: string, line: string)
    requires '\n' !in line
    ensures CountNewlines(s + line + "\n") == CountNewlines(s) + 1
  {
    CountIsMultiplicity(s + line + "\n");
    CountIsMultiplicity(s);
    assert multiset(s + line + "\n") == multiset(s) + multiset(line) + multiset("\n");
  }

  /** `count_lines_of_code`: a failed read propagates its error (the `?`), a
      successful one scans the characters and counts the newlines. */
  method CountLinesOfCode(read: ReadResult) returns (r: Result<nat>)
    ensures read.ReadFailed? ==> r == Err(read.message)
    ensures read.Content? ==> r.Ok? && r.value == multiset(read.text)['\n']
    ensures read.Content? ==> r.value <= |read.text|
  {
    match read {
      case ReadFailed(message) =>
        return Err(message);
      case Content(text) =>
        var count := 0;
        var i := 0;
        while i < |text|
          invariant 0 <= i <= |text|
          invariant count == multiset(text[..i])['\n']
          invariant count <= i
        {
          assert text[..i + 1] == text[..i] + [text[i]];
          if text[i] == '\n' {
            count := count + 1;
          }
          i := i + 1;
        }
        assert text[..i] == text;
        return Ok(count);
    }
  }

  /** The function used by the aggregation agrees with the scanning method. */
  function LinesRead(read: ReadResult): (r: Result<nat>)
    ensures read.ReadFailed? ==> r == Err(read.message)
    ensures read.Content? ==> r.Ok? && r.value == multiset(read.text)['\n']
  {
    match read
    case ReadFailed(message) => Err(message)
    case Content(text) =>
      CountIsMultiplicity(text);
      Ok(CountNewlines(text))
  }
}

=== FILE: report.dfy ===
/** The report (src/main.rs:170-220): in verbose mode a sorted table of files
    and one of languages, each line padded to the terminal width with the
    count flush right, then the grand total; in quiet mode the grand total
    alone. */
module Report {
  import opened Base
  import opened Text
  import opened Sorting
  import opened Totals
  import opened Languages
  import opened Aggregate

  /** Width assumed when the terminal size cannot be queried. */
  const FallbackWidth: nat := 80

  const Banner := "code-lines v0.1.0"

  /** `size.0`: the terminal's column count, or the fallback. */
  function Width(terminal: Option<nat>): (w: nat)
    ensures terminal.None? ==> w == FallbackWidth
    ensures terminal.Some? ==> w == terminal.value
  {
    match terminal
    case Some(columns) => columns
    case None => FallbackWidth
  }

  /** A count can be printed on a line of `width` columns without the column
      arithmetic `width - digits - 2` going below zero. */
  predicate Fits(n: nat, width: nat)
  {
    |NatToString(n)| + 2 <= width
  }

  /** The caption column of a row: `width - digits(n) - 2` characters. */
  function LabelWidth(n: nat, width: nat): nat
    requires Fits(n, width)
  {
    width - |NatToString(n)| - 2
  }

  /** `println!("{:<2$} {}", caption, n, len)`: the caption left-aligned in its
      column, one space, the count. A caption that fits leaves the line exactly
      one column short of the width; a longer one pushes the count right. */
  function Row(caption: string, n: nat, width: nat): (r: string)
    requires Fits(n, width)
    ensures |caption| <= LabelWidth(n, width) ==> |r| == width - 1
    ensures |caption| > LabelWidth(n, width) ==> |r| == |caption| + 1 + |NatToString(n)|
    ensures r[..|caption|] == caption
    ensures forall i :: |caption| <= i < LabelWidth(n, width) ==> r[i] == ' '
    ensures r[|r| - |NatToString(n)| - 1] == ' '
    ensures r[|r| - |NatToString(n)|..] == NatToString(n)
  {
    var padded := PadRight(caption, LabelWidth(n, width));
    assert (padded + " " + NatToString(n))[..|caption|] == padded[..|caption|];
    padded + " " + NatToString(n)
  }

  /** A file line: the path cut from the left to the caption column, keeping its
      tail, then the count. It is always exactly `width - 1` columns. */
  function FileRow(d: CodeDir, width: nat): (r: string)
    requires Fits(d.lines, width)
    ensures |r| == width - 1
    ensures var k := Min(LabelWidth(d.lines, width), |d.path|);
            r[..k] == d.path[|d.path| - k..]
    ensures forall i :: Min(LabelWidth(d.lines, width), |d.path|) <= i < |r| - |NatToString(d.lines)| ==>
              r[i] == ' '
    ensures r[|r| - |NatToString(d.lines)|..] == NatToString(d.lines)
  {
    TailTruncateIsSuffix(d.path, LabelWidth(d.lines, width));
    Row(TailTruncate(d.path, LabelWidth(d.lines, width)), d.lines, width)
  }

  /** The records that get a line: those with at least one line. */
  function Shown(dirs: seq<CodeDir>): (r: seq<CodeDir>)
    ensures |r| <= |dirs|
    ensures forall i :: 0 <= i < |r| ==> r[i].lines > 0 && r[i] in dirs
    ensures forall i :: 0 <= i < |dirs| && dirs[i].lines > 0 ==> dirs[i] in r
  {
    if |dirs| == 0 then []
    else (if dirs[0].lines == 0 then [] else [dirs[0]]) + Shown(dirs[1..])
  }

  /** Every non-empty record's count fits the width. */
  predicate CountsFit(dirs: seq<CodeDir>, width: nat)
  {
    forall i :: 0 <= i < |dirs| && dirs[i].lines > 0 ==> Fits(dirs[i].lines, width)
  }

  /** The loop over the sorted records, skipping zero-line ones. */
  function FileRows(sorted: seq<CodeDir>, width: nat): (r: seq<string>)
    requires CountsFit(sorted, width)
    ensures |r| == |Shown(sorted)|
    ensures forall i :: 0 <= i < |r| ==> |r[i]| == width - 1
    ensures forall i :: 0 <= i < |r| ==>
              Fits(Shown(sorted)[i].lines, width) && r[i] == FileRow(Shown(sorted)[i], width)
  {
    ShownFits(sorted, width);
    var shown := Shown(sorted);
    seq(|shown|, i requires 0 <= i < |shown| => FileRow(shown[i], width))
  }

  /** Hiding the empty records keeps every count fitting. */
  lemma ShownFits(dirs: seq<CodeDir>, width: nat)
    requires CountsFit(dirs, width)
    ensures forall i :: 0 <= i < |Shown(dirs)| ==> Fits(Shown(dirs)[i].lines, width)
  {
    var shown := Shown(dirs);
    forall i | 0 <= i < |shown|
      ensures Fits(shown[i].lines, width)
    {
      var j :| 0 <= j < |dirs| && dirs[j] == shown[i];
    }
  }

  /** Sorting keeps every count fitting. */
  lemma SortedCountsFit(dirs: seq<CodeDir>, width: nat)
    requires CountsFit(dirs, width)
    ensures CountsFit(SortDesc(dirs, Lines), width)
  {
    var sorted := SortDesc(dirs, Lines);
    SortDescSameElements(dirs, Lines);
    forall i | 0 <= i < |sorted| && sorted[i].lines > 0
      ensures Fits(sorted[i].lines, width)
    {
      var j :| 0 <= j < |dirs| && dirs[j] == sorted[i];
    }
  }

  /** `Vec::from_iter(line_count.iter())`: the (language, total) pairs in the
      map's iteration order. */
  function Pairs(m: map<Language, nat>, order: seq<Language>): (r: seq<(Language, nat)>)
    requires forall i :: 0 <= i < |order| ==> order[i] in m
    ensures |r| == |order|
    ensures forall i :: 0 <= i < |order| ==> r[i] == (order[i], m[order[i]])
  {
    seq(|order|, i requires 0 <= i < |order| => (order[i], m[order[i]]))
  }

  /** The sorted pairs hold each entry of the map, and nothing else. */
  lemma SortedPairsContents(m: map<Language, nat>, order: seq<Language>)
    requires IsEnumeration(order, m.Keys)
    ensures |SortDesc(Pairs(m, order), Count)| == |m|
    ensures forall i :: 0 <= i < |SortDesc(Pairs(m, order), Count)| ==>
              SortDesc(Pairs(m, order), Count)[i].0 in m
              && SortDesc(Pairs(m, order), Count)[i].1 == m[SortDesc(Pairs(m, order), Count)[i].0]
    ensures forall l :: l in m ==> (l, m[l]) in SortDesc(Pairs(m, order), Count)
  {
    var pairs := Pairs(m, order);
    var r := SortDesc(pairs, Count);
    EnumerationSize(order, m.Keys);
    SortDescSameElements(pairs, Count);
    forall i | 0 <= i < |r|
      ensures r[i].0 in m && r[i].1 == m[r[i].0]
    {
      var j :| 0 <= j < |pairs| && pairs[j] == r[i];
    }
    forall l | l in m
      ensures (l, m[l]) in r
    {
      var j :| 0 <= j < |order| && order[j] == l;
      assert pairs[j] == (l, m[l]);
    }
  }

  function Count(p: (Language, nat)): nat
  {
    p.1
  }

  lemma {:induction false} PairsSum(m: map<Language, nat>, order: seq<Language>)
    requires forall i :: 0 <= i < |order| ==> order[i] in m
    ensures SumKeys(Pairs(m, order), Count) == SumOver(m, order)
  {
    if |order| > 0 {
      assert Pairs(m, order)[1..] == Pairs(m, order[1..]);
      PairsSum(m, order[1..]);
    }
  }

  function LanguageRows(sorted: seq<(Language, nat)>, width: nat): (r: seq<string>)
    requires forall i :: 0 <= i < |sorted| ==> Fits(sorted[i].1, width)
    ensures |r| == |sorted|
    ensures forall i :: 0 <= i < |sorted| ==> r[i] == Row(sorted[i].0, sorted[i].1, width)
  {
    seq(|sorted|, i requires 0 <= i < |sorted| => Row(sorted[i].0, sorted[i].1, width))
  }

  /** The sorted language list, as the verbose report prints it: each entry
      a language with its own total, largest total first (see
      `SortedLanguagesArePairs` for the rest). */
  function SortedLanguages(m: map<Language, nat>, order: seq<Language>): (r: seq<(Language, nat)>)
    requires IsEnumeration(order, m.Keys)
    ensures |r| == |m|
    ensures forall i :: 0 <= i < |r| ==> r[i].0 in m && r[i].1 == m[r[i].0]
    ensures SortedDesc(r, Count)
  {
    SortedPairsContents(m, order);
    SortDescSorted(Pairs(m, order), Count);
    SortDesc(Pairs(m, order), Count)
  }

  /** The sorted list is a permutation of the map's pairs, so every language
      appears once with its own total, and languages with equal totals keep
      the map's iteration order. */
  lemma SortedLanguagesArePairs(m: map<Language, nat>, order: seq<Language>)
    requires IsEnumeration(order, m.Keys)
    ensures multiset(SortedLanguages(m, order)) == multiset(Pairs(m, order))
    ensures forall l :: l in m ==> (l, m[l]) in SortedLanguages(m, order)
    ensures forall k :: WithKey(SortedLanguages(m, order), Count, k) == WithKey(Pairs(m, order), Count, k)
  {
    SortedPairsContents(m, order);
    SortIsStableForAllKeys(Pairs(m, order), Count);
  }

  /** Every number the verbose report prints fits the width. */
  ghost predicate AllFit(dirs: seq<CodeDir>, lineCount: map<Language, nat>, width: nat)
  {
    && CountsFit(dirs, width)
    && (forall l :: l in lineCount ==> Fits(lineCount[l], width))
    && Fits(MapSum(lineCount), width)
  }

  /** The file table: blank line, header with the number of ALL records,
      rule, then one row per shown record (see `FileTableLists`). */
  function FileTable(dirs: seq<CodeDir>, width: nat): (r: seq<string>)
    requires CountsFit(dirs, width)
    requires width >= 1
    ensures |r| == 3 + |Shown(dirs)|
    ensures r[0] == "" && r[2] == Repeat('=', width - 1)
    ensures r[1] == "Files (" + NatToString(|dirs|) + ")"
  {
    SortedCountsFit(dirs, width);
    SortedShown(dirs);
    ["", "Files (" + NatToString(|dirs|) + ")", Repeat('=', width - 1)]
      + FileRows(SortDesc(dirs, Lines), width)
  }

  /** The rows of the file table are the non-empty records, largest first,
      records with equal counts in walk order, each as its `FileRow`. */
  lemma FileTableLists(dirs: seq<CodeDir>, width: nat)
    requires CountsFit(dirs, width)
    requires width >= 1
    ensures |SortDesc(Shown(dirs), Lines)| == |Shown(dirs)|
    ensures forall i :: 0 <= i < |Shown(dirs)| ==>
              && SortDesc(Shown(dirs), Lines)[i].lines > 0
              && Fits(SortDesc(Shown(dirs), Lines)[i].lines, width)
              && FileTable(dirs, width)[3 + i] == FileRow(SortDesc(Shown(dirs), Lines)[i], width)
  {
    var sorted := SortDesc(dirs, Lines);
    SortedCountsFit(dirs, width);
    SortedShown(dirs);
    ShownOfSorted(dirs);
    var rows := FileRows(sorted, width);
    var table := FileTable(dirs, width);
    assert table[3..] == rows;
  }

  /** The language table: blank line, header, rule, one row per language
      (see `LanguageTableLists`). */
  function LanguageTable(lineCount: map<Language, nat>, order: seq<Language>, width: nat): (r: seq<string>)
    requires IsEnumeration(order, lineCount.Keys)
    requires forall l :: l in lineCount ==> Fits(lineCount[l], width)
    requires width >= 1
    ensures |r| == 3 + |lineCount|
    ensures r[0] == "" && r[1] == "Languages" && r[2] == Repeat('=', width - 1)
  {
    SortedLanguagesFit(lineCount, order, width);
    ["", "Languages", Repeat('=', width - 1)] + LanguageRows(SortedLanguages(lineCount, order), width)
  }

  /** Every total in the sorted list fits the width when every total does. */
  lemma SortedLanguagesFit(lineCount: map<Language, nat>, order: seq<Language>, width: nat)
    requires IsEnumeration(order, lineCount.Keys)
    requires forall l :: l in lineCount ==> Fits(lineCount[l], width)
    ensures forall i :: 0 <= i < |SortedLanguages(lineCount, order)| ==>
              Fits(SortedLanguages(lineCount, order)[i].1, width)
  {
  }

  /** Line `3 + i` of the language table is the i-th language of the sorted
      list with its total. */
  lemma LanguageTableLists(lineCount: map<Language, nat>, order: seq<Language>, width: nat)
    requires IsEnumeration(order, lineCount.Keys)
    requires forall l :: l in lineCount ==> Fits(lineCount[l], width)
    requires width >= 1
    ensures forall i :: 0 <= i < |lineCount| ==>
              && Fits(SortedLanguages(lineCount, order)[i].1, width)
              && LanguageTable(lineCount, order, width)[3 + i]
                   == Row(SortedLanguages(lineCount, order)[i].0, SortedLanguages(lineCount, order)[i].1, width)
  {
    var sorted := SortedLanguages(lineCount, order);
    var rows := LanguageRows(sorted, width);
    assert LanguageTable(lineCount, order, width)[3..] == rows;
  }

  /** The verbose total: `total += value` over the sorted language list. */
  function VerboseTotal(lineCount: map<Language, nat>, order: seq<Language>): (t: nat)
    requires IsEnumeration(order, lineCount.Keys)
    ensures t == MapSum(lineCount)
  {
    var languages := SortedLanguages(lineCount, order);
    PairsSum(lineCount, order);
    SumOverEnumeration(lineCount, order);
    SumKeys(languages, Count)
  }

  /** The verbose report after the banner: both tables, a rule, a blank line
      and the total line. */
  function Verbose(dirs: seq<CodeDir>, lineCount: map<Language, nat>, order: seq<Language>,
                   width: nat): (r: seq<string>)
    requires IsEnumeration(order, lineCount.Keys)
    requires AllFit(dirs, lineCount, width)
    ensures |r| == 9 + |Shown(dirs)| + |lineCount|
    ensures r[1] == "Files (" + NatToString(|dirs|) + ")"
    ensures r[|r| - 1] == Row("Total:", MapSum(lineCount), width)
  {
    var files := FileTable(dirs, width);
    var languages := LanguageTable(lineCount, order, width);
    var total := VerboseTotal(lineCount, order);
    var r := files + languages + [Repeat('-', width - 1), "", Row("Total:", total, width)];
    assert r[1] == files[1];
    r
  }

  /** The verbose report is the file table, the language table, a rule of
      `-`, a blank line and the `Total:` row carrying the grand total, in
      that order. */
  lemma VerboseLists(dirs: seq<CodeDir>, lineCount: map<Language, nat>, order: seq<Language>,
                     width: nat)
    requires IsEnumeration(order, lineCount.Keys)
    requires AllFit(dirs, lineCount, width)
    ensures Verbose(dirs, lineCount, order, width)
              == FileTable(dirs, width) + LanguageTable(lineCount, order, width)
                 + [Repeat('-', width - 1), "", Row("Total:", MapSum(lineCount), width)]
  {
    assert VerboseTotal(lineCount, order) == MapSum(lineCount);
  }

  /** Quiet mode: the total summed in the map's own iteration order. */
  function Quiet(lineCount: map<Language, nat>, order: seq<Language>): (r: seq<string>)
    requires IsEnumeration(order, lineCount.Keys)
    ensures r == [NatToString(MapSum(lineCount))]
    ensures AllDigits(r[0]) && ParseNat(r[0]) == MapSum(lineCount)
  {
    SumOverEnumeration(lineCount, order);
    ParseNatToString(SumOver(lineCount, order));
    [NatToString(SumOver(lineCount, order))]
  }

  lemma {:induction false} EnumerationSize(order: seq<Language>, keys: set<Language>)
    requires IsEnumeration(order, keys)
    ensures |order| == |keys|
    decreases |order|
  {
    if |order| > 0 {
      EnumerationTail(keys, order);
      EnumerationSize(order[1..], keys - {order[0]});
    } else {
      assert keys == {};
    }
  }

  /** Sorting neither adds records nor changes how many are shown. */
  lemma SortedShown(dirs: seq<CodeDir>)
    ensures forall d :: d in SortDesc(dirs, Lines) ==> d in dirs
    ensures |Shown(SortDesc(dirs, Lines))| == |Shown(dirs)|
  {
    var sortedDirs := SortDesc(dirs, Lines);
    forall d | d in sortedDirs
      ensures d in dirs
    {
      assert d in multiset(sortedDirs);
      assert d in multiset(dirs);
    }
    SortIsStable(dirs, Lines, 0);
    ShownAndZeros(dirs);
    ShownAndZeros(sortedDirs);
  }

  /** Hiding the zero-line records commutes with the stable sort: the file
      table lists exactly the non-empty records, largest first, and records
      with equal counts in walk order. */
  lemma ShownOfSorted(dirs: seq<CodeDir>)
    ensures Shown(SortDesc(dirs, Lines)) == SortDesc(Shown(dirs), Lines)
  {
    var sortedDirs := SortDesc(dirs, Lines);
    SortDescSorted(dirs, Lines);
    ShownKeepsOrder(sortedDirs);
    forall k: nat
      ensures WithKey(Shown(sortedDirs), Lines, k) == WithKey(Shown(dirs), Lines, k)
    {
      WithKeyOfShown(sortedDirs, k);
      WithKeyOfShown(dirs, k);
      SortIsStable(dirs, Lines, k);
    }
    SortDescCharacterised(Shown(dirs), Shown(sortedDirs), Lines);
  }

  lemma {:induction false} ShownKeepsOrder(dirs: seq<CodeDir>)
    requires SortedDesc(dirs, Lines)
    ensures SortedDesc(Shown(dirs), Lines)
  {
    if |dirs| > 0 {
      var rest := dirs[1..];
      var tail := Shown(rest);
      assert SortedDesc(rest, Lines);
      ShownKeepsOrder(rest);
      if dirs[0].lines > 0 {
        ShownBounded(rest, dirs[0].lines);
        assert Shown(dirs) == [dirs[0]] + tail;
        PrependKeepsOrder(dirs[0], tail);
      }
    }
  }

  lemma PrependKeepsOrder(d: CodeDir, dirs: seq<CodeDir>)
    requires SortedDesc(dirs, Lines)
    requires forall i :: 0 <= i < |dirs| ==> dirs[i].lines <= d.lines
    ensures SortedDesc([d] + dirs, Lines)
  {
    var r := [d] + dirs;
    forall i, j | 0 <= i < j < |r|
      ensures Lines(r[i]) >= Lines(r[j])
    {
      assert r[j] == dirs[j - 1];
      if i > 0 {
        assert r[i] == dirs[i - 1];
      }
    }
  }

  lemma {:induction false} ShownBounded(dirs: seq<CodeDir>, bound: nat)
    requires forall i :: 0 <= i < |dirs| ==> dirs[i].lines <= bound
    ensures forall i :: 0 <= i < |Shown(dirs)| ==> Shown(dirs)[i].lines <= bound
  {
    if |dirs| > 0 {
      ShownBounded(dirs[1..], bound);
    }
  }

  lemma {:induction false} WithKeyOfShown(dirs: seq<CodeDir>, k: nat)
    ensures WithKey(Shown(dirs), Lines, k) == (if k == 0 then [] else WithKey(dirs, Lines, k))
  {
    if |dirs| > 0 {
      WithKeyOfShown(dirs[1..], k);
      var head := if dirs[0].lines == 0 then [] else [dirs[0]];
      WithKeyAppend(head, Shown(dirs[1..]), Lines, k);
    }
  }

  /** Every record is either shown or a zero-line record. */
  lemma {:induction false} ShownAndZeros(dirs: seq<CodeDir>)
    ensures |Shown(dirs)| + |WithKey(dirs, Lines, 0)| == |dirs|
  {
    if |dirs| > 0 {
      ShownAndZeros(dirs[1..]);
    }
  }
}

=== FILE: sorting.dfy ===
/** The report's `sort_by(|a, b| b.n.cmp(&a.n))` (src/main.rs:174, 192-193):
    a stable sort by a count, largest first. Modelled as an insertion sort and
    pinned down by the three facts that characterise a stable sort:
    permutation, order, and the preserved order within each key. */
module Sorting {

  /** Keys never increase from left to right. */
  predicate SortedDesc<T>(s: seq<T>, key: T -> nat)
  {
    forall i, j :: 0 <= i < j < |s| ==> key(s[i]) >= key(s[j])
  }

  /** The elements of `s` whose key is `k`, in their order in `s`. */
  function WithKey<T>(s: seq<T>, key: T -> nat, k: nat): (r: seq<T>)
    ensures |r| <= |s|
  {
    if |s| == 0 then []
    else (if key(s[0]) == k then [s[0]] else []) + WithKey(s[1..], key, k)
  }

  /** `WithKey` keeps exactly the elements whose key is `k`. */
  lemma {:induction false} WithKeyMembers<T>(s: seq<T>, key: T -> nat, k: nat)
    ensures forall i :: 0 <= i < |WithKey(s, key, k)| ==>
              WithKey(s, key, k)[i] in s && key(WithKey(s, key, k)[i]) == k
    ensures forall i :: 0 <= i < |s| && key(s[i]) == k ==> s[i] in WithKey(s, key, k)
  {
    if |s| > 0 {
      WithKeyMembers(s[1..], key, k);
      var r := WithKey(s, key, k);
      var head := if key(s[0]) == k then [s[0]] else [];
      assert r == head + WithKey(s[1..], key, k);
      forall i | 0 <= i < |r|
        ensures r[i] in s && key(r[i]) == k
      {
        if i >= |head| {
          assert r[i] == WithKey(s[1..], key, k)[i - |head|];
        }
      }
      forall i | 0 <= i < |s| && key(s[i]) == k
        ensures s[i] in r
      {
        if i > 0 {
          assert s[i] == s[1..][i - 1];
        }
      }
    }
  }

  /** The sum of the keys of `s`. */
  function SumKeys<T>(s: seq<T>, key: T -> nat): nat
  {
    if |s| == 0 then 0 else key(s[0]) + SumKeys(s[1..], key)
  }

  /** Appending an element adds its key. */
  lemma {:induction false} SumKeysAppend<T>(s: seq<T>, x: T, key: T -> nat)
    ensures SumKeys(s + [x], key) == SumKeys(s, key) + key(x)
  {
    if |s| == 0 {
      assert s + [x] == [x];
    } else {
      assert (s + [x])[1..] == s[1..] + [x];
      SumKeysAppend(s[1..], x, key);
    }
  }

  /** No single key exceeds the sum. */
  lemma {:induction false} KeyAtMostSum<T>(s: seq<T>, key: T -> nat, x: T)
    requires x in s
    ensures key(x) <= SumKeys(s, key)
  {
    if s[0] != x {
      KeyAtMostSum(s[1..], key, x);
    }
  }

  /** Places `x` in front of the first element whose key is not larger, so
      that `x` stays ahead of the elements it preceded in the input. */
  function Insert<T>(x: T, s: seq<T>, key: T -> nat): (r: seq<T>)
    ensures |r| == |s| + 1
    ensures multiset(r) == multiset(s) + multiset{x}
    ensures SumKeys(r, key) == key(x) + SumKeys(s, key)
  {
    if |s| == 0 || key(x) >= key(s[0]) then [x] + s
    else
      var rest := Insert(x, s[1..], key);
      assert s == [s[0]] + s[1..];
      assert ([s[0]] + rest)[1..] == rest;
      [s[0]] + rest
  }

  /** Inserting into a sorted sequence keeps it sorted. */
  lemma {:induction false} InsertSorted<T>(x: T, s: seq<T>, key: T -> nat)
    requires SortedDesc(s, key)
    ensures SortedDesc(Insert(x, s, key), key)
  {
    if |s| > 0 && key(x) < key(s[0]) {
      var tail := s[1..];
      var rest := Insert(x, tail, key);
      InsertSorted(x, tail, key);
      assert forall i :: 0 <= i < |tail| ==> tail[i] == s[i + 1];
      InsertBounded(x, tail, key, key(s[0]));
      var r := [s[0]] + rest;
      assert Insert(x, s, key) == r;
      forall i, j | 0 <= i < j < |r|
        ensures key(r[i]) >= key(r[j])
      {
        assert r[j] == rest[j - 1];
        if i > 0 {
          assert r[i] == rest[i - 1];
        }
      }
    }
  }

  /** Inserting an element under a bound keeps every key under it. */
  lemma InsertBounded<T>(x: T, s: seq<T>, key: T -> nat, bound: nat)
    requires forall i :: 0 <= i < |s| ==> key(s[i]) <= bound
    requires key(x) <= bound
    ensures forall j :: 0 <= j < |Insert(x, s, key)| ==> key(Insert(x, s, key)[j]) <= bound
  {
    var r := Insert(x, s, key);
    forall j | 0 <= j < |r|
      ensures key(r[j]) <= bound
    {
      assert r[j] in multiset(r);
      if r[j] != x {
        assert r[j] in multiset(s);
        var i :| 0 <= i < |s| && s[i] == r[j];
      }
    }
  }

  /** Stable sort by non-increasing key. */
  function SortDesc<T>(s: seq<T>, key: T -> nat): (r: seq<T>)
    ensures multiset(r) == multiset(s)
    ensures |r| == |s|
    ensures SumKeys(r, key) == SumKeys(s, key)
  {
    if |s| == 0 then []
    else
      assert s == [s[0]] + s[1..];
      Insert(s[0], SortDesc(s[1..], key), key)
  }

  /** The output is ordered by non-increasing key. */
  lemma {:induction false} SortDescSorted<T>(s: seq<T>, key: T -> nat)
    ensures SortedDesc(SortDesc(s, key), key)
  {
    if |s| > 0 {
      SortDescSorted(s[1..], key);
      InsertSorted(s[0], SortDesc(s[1..], key), key);
    }
  }

  lemma {:induction false} WithKeyAppend<T>(a: seq<T>, b: seq<T>, key: T -> nat, k: nat)
    ensures WithKey(a + b, key, k) == WithKey(a, key, k) + WithKey(b, key, k)
  {
    if |a| == 0 {
      assert a + b == b;
    } else {
      assert (a + b)[1..] == a[1..] + b;
      WithKeyAppend(a[1..], b, key, k);
    }
  }

  /** `WithKey` on a sequence with a given first element. */
  lemma WithKeyCons<T>(y: T, t: seq<T>, key: T -> nat, k: nat)
    ensures WithKey([y] + t, key, k) == (if key(y) == k then [y] else []) + WithKey(t, key, k)
  {
    assert ([y] + t)[1..] == t;
  }

  /** Insertion passes over larger keys only, so it keeps every key's order. */
  lemma {:induction false} InsertStable<T>(x: T, s: seq<T>, key: T -> nat, k: nat)
    ensures WithKey(Insert(x, s, key), key, k) == WithKey([x] + s, key, k)
  {
    if |s| > 0 && key(x) < key(s[0]) {
      var rest := Insert(x, s[1..], key);
      InsertStable(x, s[1..], key, k);
      assert Insert(x, s, key) == [s[0]] + rest;
      WithKeyCons(s[0], rest, key, k);
      WithKeyCons(x, s[1..], key, k);
      WithKeyCons(x, s, key, k);
      WithKeyCons(s[0], s[1..], key, k);
      assert [s[0]] + s[1..] == s;
      var w := WithKey(s[1..], key, k);
      if key(x) == k {
        assert WithKey(rest, key, k) == [x] + w;
        assert WithKey(s, key, k) == w;
      } else if key(s[0]) == k {
        assert WithKey(rest, key, k) == w;
        assert WithKey(s, key, k) == [s[0]] + w;
      } else {
        assert WithKey(rest, key, k) == w;
        assert WithKey(s, key, k) == w;
      }
    }
  }

  /** Stability: for every key, the elements carrying it appear in the output
      in the same order as in the input. */
  lemma {:induction false} SortIsStable<T>(s: seq<T>, key: T -> nat, k: nat)
    ensures WithKey(SortDesc(s, key), key, k) == WithKey(s, key, k)
  {
    if |s| > 0 {
      SortIsStable(s[1..], key, k);
      InsertStable(s[0], SortDesc(s[1..], key), key, k);
      var sorted := SortDesc(s[1..], key);
      assert ([s[0]] + sorted)[1..] == sorted;
    }
  }

  /** Sorting keeps exactly the input's elements. */
  lemma SortDescSameElements<T>(s: seq<T>, key: T -> nat)
    ensures forall i :: 0 <= i < |SortDesc(s, key)| ==> SortDesc(s, key)[i] in s
    ensures forall i :: 0 <= i < |s| ==> s[i] in SortDesc(s, key)
  {
    var r := SortDesc(s, key);
    forall i | 0 <= i < |r|
      ensures r[i] in s
    {
      assert r[i] in multiset(r);
    }
    forall i | 0 <= i < |s|
      ensures s[i] in r
    {
      assert s[i] in multiset(s);
    }
  }

  /** Stability, for every key at once. */
  lemma SortIsStableForAllKeys<T>(s: seq<T>, key: T -> nat)
    ensures forall k :: WithKey(SortDesc(s, key), key, k) == WithKey(s, key, k)
  {
    forall k
      ensures WithKey(SortDesc(s, key), key, k) == WithKey(s, key, k)
    {
      SortIsStable(s, key, k);
    }
  }

  lemma WithKeyHead<T>(s: seq<T>, key: T -> nat)
    requires |s| > 0
    ensures WithKey(s, key, key(s[0])) == [s[0]] + WithKey(s[1..], key, key(s[0]))
    ensures forall k :: k != key(s[0]) ==> WithKey(s, key, k) == WithKey(s[1..], key, k)
  {
  }

  /** A sequence is determined by being sorted and by its per-key orders: any
      two stable sorts of the same input agree, so the insertion sort stands
      for the library's merge sort. */
  lemma {:induction false} StableSortUnique<T>(a: seq<T>, b: seq<T>, key: T -> nat)
    requires SortedDesc(a, key) && SortedDesc(b, key)
    requires forall k :: WithKey(a, key, k) == WithKey(b, key, k)
    ensures a == b
  {
    if |a| == 0 || |b| == 0 {
      var ka := if |a| > 0 then key(a[0]) else 0;
      var kb := if |b| > 0 then key(b[0]) else 0;
      WithKeyMembers(a, key, ka);
      WithKeyMembers(b, key, kb);
      assert |a| > 0 ==> a[0] in WithKey(b, key, ka);
      assert |b| > 0 ==> b[0] in WithKey(a, key, kb);
    } else {
      var ka, kb := key(a[0]), key(b[0]);
      WithKeyMembers(a, key, kb);
      WithKeyMembers(b, key, ka);
      WithKeyMembers(a, key, ka);
      WithKeyMembers(b, key, kb);
      assert b[0] in WithKey(a, key, kb);
      assert a[0] in WithKey(b, key, ka);
      assert ka == kb;
      WithKeyHead(a, key);
      WithKeyHead(b, key);
      assert a[0] == WithKey(a, key, ka)[0] == WithKey(b, key, ka)[0] == b[0];
      forall k
        ensures WithKey(a[1..], key, k) == WithKey(b[1..], key, k)
      {
        if k == ka {
          assert WithKey(a[1..], key, k) == WithKey(a, key, k)[1..];
          assert WithKey(b[1..], key, k) == WithKey(b, key, k)[1..];
        }
      }
      StableSortUnique(a[1..], b[1..], key);
      assert a == [a[0]] + a[1..];
      assert b == [b[0]] + b[1..];
    }
  }

  /** The sorted output is the only stable non-increasing arrangement of the
      input. */
  lemma SortDescCharacterised<T>(s: seq<T>, r: seq<T>, key: T -> nat)
    requires SortedDesc(r, key)
    requires forall k :: WithKey(r, key, k) == WithKey(s, key, k)
    ensures r == SortDesc(s, key)
  {
    SortDescSorted(s, key);
    forall k
      ensures WithKey(r, key, k) == WithKey(SortDesc(s, key), key, k)
    {
      SortIsStable(s, key, k);
    }
    StableSortUnique(r, SortDesc(s, key), key);
  }
}

=== FILE: text.dfy ===
/** Character-level helpers behind the report: decimal rendering of counts
    (`usize::to_string`), reversal, left-aligned padding (`{:<w$}`) and the
    reverse/truncate/reverse trick that keeps the tail of a path. */
module Text {

  predicate IsDigit(c: char)
  {
    '0' <= c <= '9'
  }

  predicate AllDigits(s: string)
  {
    forall i :: 0 <= i < |s| ==> IsDigit(s[i])
  }

  function DigitChar(d: nat): (c: char)
    requires d < 10
    ensures IsDigit(c)
  {
    ('0' as int + d) as char
  }

  function DigitValue(c: char): (d: nat)
    requires IsDigit(c)
    ensures d < 10
  {
    c as int - '0' as int
  }

  /** Decimal rendering of a count, most significant digit first, with no
      leading zero (`usize::to_string`). */
  function NatToString(n: nat): (s: string)
    ensures |s| >= 1
    ensures AllDigits(s)
    ensures n > 0 ==> s[0] != '0'
    ensures n < 10 <==> |s| == 1
  {
    if n < 10 then [DigitChar(n)] else NatToString(n / 10) + [DigitChar(n % 10)]
  }

  /** Reads a string of decimal digits back into the number it denotes. */
  function ParseNat(s: string): nat
    requires AllDigits(s)
  {
    if |s| == 0 then 0 else ParseNat(s[..|s| - 1]) * 10 + DigitValue(s[|s| - 1])
  }

  /** Rendering a count and reading it back gives the same count: the printed
      totals denote exactly the computed numbers. */
  lemma {:induction false} ParseNatToString(n: nat)
    ensures ParseNat(NatToString(n)) == n
  {
    if n >= 10 {
      var s := NatToString(n);
      assert s[..|s| - 1] == NatToString(n / 10);
      ParseNatToString(n / 10);
    }
  }

  /** A larger count never prints with fewer digits, so a width that fits the
      largest number fits every smaller one. */
  lemma {:induction false} DigitsMonotone(m: nat, n: nat)
    requires m <= n
    ensures |NatToString(m)| <= |NatToString(n)|
  {
    if m >= 10 {
      DigitsMonotone(m / 10, n / 10);
    }
  }

  /** The characters of `s` in reverse order (`chars().rev().collect()`). */
  function Reverse<T>(s: seq<T>): (r: seq<T>)
    ensures |r| == |s|
    ensures forall i :: 0 <= i < |s| ==> r[i] == s[|s| - 1 - i]
  {
    if |s| == 0 then [] else Reverse(s[1..]) + [s[0]]
  }

  /** `n` copies of `c` (`str::repeat`). */
  function Repeat(c: char, n: nat): (r: string)
    ensures |r| == n
    ensures forall i :: 0 <= i < n ==> r[i] == c
  {
    seq(n, _ => c)
  }

  /** The `{:<w$}` format: `s` followed by enough spaces to reach `w`
      characters; a longer `s` is printed whole, never cut. */
  function PadRight(s: string, w: nat): (r: string)
    ensures |r| == if |s| < w then w else |s|
    ensures r[..|s|] == s
    ensures forall i :: |s| <= i < |r| ==> r[i] == ' '
  {
    if |s| < w then s + Repeat(' ', w - |s|) else s
  }

  function Min(a: nat, b: nat): nat
  {
    if a < b then a else b
  }

  /** The report's path shortening: reverse the characters, keep the first
      `len` of them (`String::truncate`), and reverse back. */
  function TailTruncate(path: string, len: nat): string
  {
    Reverse(Reverse(path)[..Min(len, |path|)])
  }

  /** Tail truncation keeps exactly the last `min(len, |path|)` characters. */
  lemma TailTruncateIsSuffix(path: string, len: nat)
    ensures TailTruncate(path, len) == path[|path| - Min(len, |path|)..]
  {
    var k := Min(len, |path|);
    var r := TailTruncate(path, len);
    var rev := Reverse(path);
    assert |r| == k;
    forall i | 0 <= i < k
      ensures r[i] == path[|path| - k + i]
    {
      assert r[i] == rev[..k][k - 1 - i];
      assert rev[k - 1 - i] == path[|path| - 1 - (k - 1 - i)];
    }
  }

  /** A path that already fits is printed unchanged. */
  lemma TailTruncateFits(path: string, len: nat)
    requires |path| <= len
    ensures TailTruncate(path, len) == path
  {
    TailTruncateIsSuffix(path, len);
  }
}

=== FILE: totals.dfy ===
/** Sums over the per-language totals. The totals live in a `HashMap`, so
    every loop over them (src/main.rs:195-204, 214-217) visits the keys in an
    order the program does not choose; the sums here show the order is
    irrelevant. */
module Totals {
  import opened Base

  /** The sum of the values of `m` under the keys `ks`, independent of any order. */
  ghost function SumOn(m: map<string, nat>, ks: set<string>): nat
    requires ks <= m.Keys
  {
    if ks == {} then 0
    else
      var k :| k in ks;
      m[k] + SumOn(m, ks - {k})
  }

  /** The sum of all values of `m`. */
  ghost function MapSum(m: map<string, nat>): nat
  {
    SumOn(m, m.Keys)
  }

  /** Any key can be taken out first. */
  lemma {:induction false} SumOnRemove(m: map<string, nat>, ks: set<string>, k: string)
    requires ks <= m.Keys && k in ks
    ensures SumOn(m, ks) == m[k] + SumOn(m, ks - {k})
  {
    var k' :| k' in ks && SumOn(m, ks) == m[k'] + SumOn(m, ks - {k'});
    if k' != k {
      SumOnRemove(m, ks - {k'}, k);
      SumOnRemove(m, ks - {k}, k');
      assert ks - {k'} - {k} == ks - {k} - {k'};
    }
  }

  /** Only the values under `ks` matter. */
  lemma {:induction false} SumOnAgrees(m: map<string, nat>, m': map<string, nat>, ks: set<string>)
    requires ks <= m.Keys && ks <= m'.Keys
    requires forall k :: k in ks ==> m[k] == m'[k]
    ensures SumOn(m, ks) == SumOn(m', ks)
  {
    if ks != {} {
      var k :| k in ks;
      SumOnRemove(m, ks, k);
      SumOnRemove(m', ks, k);
      SumOnAgrees(m, m', ks - {k});
    }
  }

  /** No single value exceeds the sum. */
  lemma ValueAtMostSum(m: map<string, nat>, k: string)
    requires k in m
    ensures m[k] <= MapSum(m)
  {
    SumOnRemove(m, m.Keys, k);
  }

  /** Replacing the value under `k` by `v` moves the sum by the difference. */
  lemma MapSumUpdate(m: map<string, nat>, k: string, v: nat)
    ensures MapSum(m[k := v]) + (if k in m then m[k] else 0) == MapSum(m) + v
  {
    var m2 := m[k := v];
    SumOnRemove(m2, m2.Keys, k);
    SumOnAgrees(m2, m, m.Keys - {k});
    assert m2.Keys - {k} == m.Keys - {k};
    if k in m {
      SumOnRemove(m, m.Keys, k);
    } else {
      assert m.Keys - {k} == m.Keys;
    }
  }

  /** `for (_, value) in line_count { total += value; }` with the map visited
      in the order `order`. */
  function SumOver(m: map<string, nat>, order: seq<string>): nat
    requires forall i :: 0 <= i < |order| ==> order[i] in m
  {
    if |order| == 0 then 0 else m[order[0]] + SumOver(m, order[1..])
  }

  lemma {:induction false} EnumerationTail(ks: set<string>, order: seq<string>)
    requires |order| > 0 && IsEnumeration(order, ks)
    ensures IsEnumeration(order[1..], ks - {order[0]})
  {
    forall l | l in ks - {order[0]}
      ensures l in order[1..]
    {
      var i :| 0 <= i < |order| && order[i] == l;
      assert order[1..][i - 1] == l;
    }
  }

  lemma {:induction false} SumOverIsSumOn(m: map<string, nat>, ks: set<string>, order: seq<string>)
    requires ks <= m.Keys && IsEnumeration(order, ks)
    ensures SumOver(m, order) == SumOn(m, ks)
    decreases |order|
  {
    if |order| == 0 {
      assert ks == {};
    } else {
      EnumerationTail(ks, order);
      SumOverIsSumOn(m, ks - {order[0]}, order[1..]);
      SumOnRemove(m, ks, order[0]);
    }
  }

  /** Summing the values in any iteration order gives the order-free sum. */
  lemma SumOverEnumeration(m: map<string, nat>, order: seq<string>)
    requires IsEnumeration(order, m.Keys)
    ensures SumOver(m, order) == MapSum(m)
  {
    SumOverIsSumOn(m, m.Keys, order);
  }

  /** Two loops over the same map in different orders add up to the same total. */
  lemma SumOverOrderIndependent(m: map<string, nat>, o1: seq<string>, o2: seq<string>)
    requires IsEnumeration(o1, m.Keys) && IsEnumeration(o2, m.Keys)
    ensures SumOver(m, o1) == SumOver(m, o2)
  {
    SumOverEnumeration(m, o1);
    SumOverEnumeration(m, o2);
  }
}
